=== FILE: README.md ===
# File organizer — a Dafny model

This project models the three versions of a downloads-folder organizer. Each sorts the regular files of one folder into category folders by file extension.

- **`OrganizadorJerarquico`** (`organizar_v3_subcategorias.py`, module `Hierarchical`) has a two-level taxonomy.
  - Files go to `Categoria/Subcategoria`, or to `Otros` when no list names the extension.
  - A dry run only counts. An execute run also moves, renaming on a name collision.
  - Both runs end with a console report that groups the counters by category.
- **`OrganizadorArchivos`** (`organizar_archivos_v2.py`, module `Flat`) has one level of categories.
  - Its own `Otros` entry is the default.
  - Each per-file failure is counted, and the run carries on.
- **`organizar_descargas`** (`organizar_archivos.py`, module `Original`) is the first script.
  - It has no fallback category and no collision handling.
  - Nothing catches an exception, so one failing move ends the run.

The shared pieces:

- **`Names`** models the string work:
  - `str.lower`;
  - `PurePath.suffix`, which ignores a leading dot and a trailing dot;
  - `os.path.splitext`, which skips leading dots;
  - the timestamped rename.
- **`Counters`** models the insertion-ordered Python dictionaries used as counters.
- **`FileSystem`** models a directory snapshot:
  - paths are component lists below the organised folder;
  - each file carries a content identity, so an overwrite is visible;
  - `shutil.move` is modelled with POSIX semantics.
- **`Relocation`** models the collision rule that v2 and v3 share.
- **`Kinds`** models the one-level lookup that v1 and v2 share.
- **`Report`** models the grouping and ordering that v3's `mostrar_reporte` prints.

Parameters stand in for what the model cannot see:

- **Clock:** the run's timestamp is an opaque string.
- **Failing moves:** a move that raises for reasons outside the snapshot (permission denied, I/O error) is a set of failing file names.
- **Folder contents:** `os.listdir` is a listing parameter.

Where the code departs from the organizer's intended behaviour, the model follows the code:

- **Collision rename (v2, v3):** the timestamped name is not checked again before `shutil.move`. If it is also taken, the move replaces that file (`Hierarchical.OverwriteOnRepeatedCollision`). The intent, as the comment at `organizar_archivos_v2.py:100` says, is to avoid overwriting.
- **Missing folder (v3):** `main` prints a message and returns normally (`Hierarchical.RunCommand`). A failing exit status would be the intended signal. The test is `os.path.exists`, so a regular file passes it. An execute run then crashes and a dry run reports an error, where `os.path.isdir` would have rejected the path.
- **Missing folder (v1, v2):** the first script checks nothing. On a missing path or a regular file, its first `mkdir` raises uncaught, before any file moves (`Original.RunScript`). v2 has the same `os.path.exists` test as v3 (`Flat.RunCommand`). On a regular file, `crear_carpetas` raises outside the `try`.
- **Location counter (v3):** the counter grows before the move is tried, so a failed move still counts its location. The intended behaviour counts the location only on success. `por_categoria` is never filled.
- **Counting a move (v2):** a file counts as moved before its category counter is incremented. A category that has no counter would therefore give a move and an error for the same file. With the table of the script this cannot happen. `Flat.CategoryFor` always gives `Otros` or a key of the table, `Flat.CreateFolders` gives every key a counter, and `Flat.TiposNamesOtros` shows that `Otros` is a key.
- **Failed move (v1):** the exception is not caught, so one file's failure aborts the batch (`Original.OrganizeDownloads`). The later versions catch a per-file failure and carry on.

## Model

| member | source | states |
|---|---|---|
| Names.Lower | organizar_v3_subcategorias.py:79 | the lower-cased extension keeps its length and maps every character through the ASCII case folding |
| Names.LowerIdempotent | organizar_v3_subcategorias.py:79 | lower-casing twice is lower-casing once |
| Names.Suffix | organizar_v3_subcategorias.py:122 | `Path(name).suffix`. It is empty exactly when the name is empty, ends with a dot, or has no dot after its first character. Otherwise it is a proper tail of the name that starts with its only dot. |
| Names.RFind | organizar_v3_subcategorias.py:122 | `str.rfind` of the dot that `PurePath.suffix` looks for: the last index holding the character, or -1 when there is none |
| Names.UndottedEntryNeverMatches | organizar_archivos.py:27-30 | no lower-cased suffix equals an entry without a leading dot |
| Names.SplitExt | organizar_v3_subcategorias.py:144 | `os.path.splitext`. Stem and extension concatenate to the name. A non-empty extension is a single dotted tail of a stem that is not all dots. With no extension, every dot follows only dots. |
| Names.TimestampedName | organizar_v3_subcategorias.py:144-145 | the renamed file name is longer by the separator and the timestamp, so it differs from the original |
| Names.TimestampedNameSplits | organizar_v3_subcategorias.py:144-146 | for a dot-free timestamp, the renamed file keeps the original extension, and its stem is the original stem followed by `_timestamp` |
| Names.SplitsBeforeExtension | organizar_v3_subcategorias.py:144-145 | inserting dot-free text between a stem that is not all dots and its extension leaves the extension as it was |
| Names.SplitsWithoutExtension | organizar_v3_subcategorias.py:144-145 | appending dot-free text to a name without an extension gives a name without one |
| Counters.Put | organizar_v3_subcategorias.py:132-133 | after `d[k] = v`, `d[k]` reads `v` and every other key reads as before. An existing key keeps its position and a new key goes last. The total changes by `v - d[k]`. |
| Counters.Increment | organizar_v3_subcategorias.py:132-133 | `d[k] = d.get(k, 0) + 1` raises `k` by one, leaves every other key, keeps the keys when `k` was present, and raises the total by one |
| Counters.NewKeys | organizar_v3_subcategorias.py:63-73 | the keys a run of assignments adds to a dictionary are exactly the assigned keys it did not hold, each once |
| Counters.ZeroAll | organizar_v3_subcategorias.py:63-73 | every listed key reads 0 and the other keys are unchanged. The keys are the old keys plus the listed ones, and a zero total stays zero. |
| Counters.ZeroAllKeys | organizar_v3_subcategorias.py:63-73 | the old keys keep their places, and the new keys follow in the order they were first assigned |
| Counters.TotalSnoc | organizar_v3_subcategorias.py:186 | appending an entry adds its count to the sum |
| FileSystem.Move | organizar_v3_subcategorias.py:149 | `shutil.move` succeeds exactly when the source is a file and the target's directory exists. The target then holds the source's contents, the source is gone, and every other path is unchanged. |
| FileSystem.RegularFiles | organizar_v3_subcategorias.py:99-103 | the kept names are exactly the listed names that are regular files of the folder. The listing order is kept, and a listing without repeats gives a filtered list without repeats. |
| Relocation.Destination | organizar_v3_subcategorias.py:139-146 | the target stays in the route directory. It is the plain name when that is free, and otherwise the timestamped name, which differs from the plain one. |
| Relocation.DestinationMayBeTaken | organizar_v3_subcategorias.py:143-149 | when both the plain and the timestamped name are taken, the chosen target is an existing file |
| Report.CategoryOf | organizar_v3_subcategorias.py:175-178 | the category of a location is its longest prefix without a slash, which ends at the first slash |
| Report.CategoryOfJoined | organizar_v3_subcategorias.py:175-176 | a `Cat/Sub` key whose category has no slash is grouped under that category |
| Report.StrLessIrreflexive | organizar_v3_subcategorias.py:185 | Python's string order is irreflexive |
| Report.StrLessTransitive | organizar_v3_subcategorias.py:185 | Python's string order is transitive |
| Report.StrLessTotal | organizar_v3_subcategorias.py:185 | any two different strings are ordered one way or the other |
| Report.AddTo | organizar_v3_subcategorias.py:180-182 | appending to `categorias[cat]` extends that category's bucket and leaves the others alone. It creates the bucket last when the category is new, and adds the item's count to the total. |
| Report.AddEntry | organizar_v3_subcategorias.py:174-182 | one pass of the grouping loop skips a zero counter, keeps one bucket per category, and adds the counter to the total |
| Report.AddToDistinct | organizar_v3_subcategorias.py:180-182 | the `if categoria not in categorias` test means a category never gets a second bucket |
| Report.CategoriesAfterAdd | organizar_v3_subcategorias.py:180-182 | after appending, the categories are the old ones in their order, followed by the item's category when it is new |
| Report.Collect | organizar_v3_subcategorias.py:172-182 | each category's bucket holds exactly the positive counters under it, in insertion order, and there is exactly one bucket for each category that has a positive counter |
| Report.CollectStep | organizar_v3_subcategorias.py:173-182 | one more counter keeps the buckets an exact grouping of the counters seen so far |
| Report.CollectSnoc | organizar_v3_subcategorias.py:173-182 | the same step, with the new counter written as appended to the earlier ones |
| Report.CollectItems | organizar_v3_subcategorias.py:180-182 | after a positive counter is appended, every bucket still holds exactly its category's positive counters |
| Report.CollectCategories | organizar_v3_subcategorias.py:180-182 | after a positive counter is appended, the buckets are exactly the categories with a positive counter |
| Report.InCategorySnoc | organizar_v3_subcategorias.py:173-182 | a category's items after one more counter are its items before, plus that counter when it is positive and under the category |
| Report.InsertBucket | organizar_v3_subcategorias.py:185 | inserting a bucket into the sorted categories adds exactly that bucket and its count |
| Report.InsertBucketAscending | organizar_v3_subcategorias.py:185 | inserting a new category keeps the categories strictly ascending |
| Report.InsertedAbove | organizar_v3_subcategorias.py:185 | a category above the head of an ascending list, inserted into the tail, keeps the head below everything after it |
| Report.HeadCategoryNotInRest | organizar_v3_subcategorias.py:185 | once distinct categories are permuted, the first category does not occur among the others |
| Report.DistinctCategoriesTail | organizar_v3_subcategorias.py:185 | the buckets after the first still have distinct categories |
| Report.DistinctCategoriesAgree | organizar_v3_subcategorias.py:180-181 | pairwise-distinct bucket categories are the same as a category list without repeats |
| Report.SortBucketsStep | organizar_v3_subcategorias.py:185 | inserting the first bucket into the sorted others permutes all of them into ascending order and keeps the total |
| Report.SortBuckets | organizar_v3_subcategorias.py:185 | `sorted(categorias.items())` permutes the buckets into strictly ascending category order and keeps the total |
| Report.InsertItem | organizar_v3_subcategorias.py:189 | inserting an item adds exactly that item and its count |
| Report.InsertItemWithCount | organizar_v3_subcategorias.py:189 | the inserted item goes ahead of the sorted items of its count, which came after it in insertion order. The items of every other count keep their order. |
| Report.PassedOver | organizar_v3_subcategorias.py:189 | moving an item past one with a larger count does not reorder the items of any count |
| Report.WithCountCons | organizar_v3_subcategorias.py:189 | the items of a given count in a list are its head, when the head has that count, followed by those of the tail |
| Report.InsertItemDescending | organizar_v3_subcategorias.py:189 | inserting keeps the items in descending count order |
| Report.InsertedBelow | organizar_v3_subcategorias.py:189 | an item below the head of a descending list, inserted into the tail, keeps the head above everything after it |
| Report.SortItems | organizar_v3_subcategorias.py:189 | the stable sort by descending count permutes the items into descending order. Items of equal count keep their insertion order, and the total is unchanged. |
| Report.ToGroups | organizar_v3_subcategorias.py:185-187 | one printed group per bucket, in order, with the same total |
| Report.SortedItemsMatch | organizar_v3_subcategorias.py:185-189 | after sorting the buckets, each still holds exactly its category's positive counters |
| Report.PermutedCategories | organizar_v3_subcategorias.py:185 | permuting the buckets keeps every category |
| Report.SortedCategoriesMatch | organizar_v3_subcategorias.py:185 | after sorting, the groups cover exactly the categories with a positive counter |
| Report.Build | organizar_v3_subcategorias.py:171-193 | the console report lists each category that has a positive counter once, in ascending order. Each total is the sum of that category's counters. The items are those counters, in descending and otherwise insertion order. All totals together equal the sum of the counters. |
| Hierarchical.EstructuraWellFormed | organizar_v3_subcategorias.py:18-40 | every category and subcategory name of `estructura` is non-empty and slash-free |
| Hierarchical.ImagenesPlain | organizar_v3_subcategorias.py:19-23 | the `Imagenes` names are plain |
| Hierarchical.DocumentosPlain | organizar_v3_subcategorias.py:24-30 | the `Documentos` names are plain |
| Hierarchical.MultimediaPlain | organizar_v3_subcategorias.py:31-34 | the `Multimedia` names are plain |
| Hierarchical.ArchivosPlain | organizar_v3_subcategorias.py:35-39 | the `Archivos` names are plain |
| Hierarchical.FindInCategory | organizar_v3_subcategorias.py:82-84 | the inner loop finds nothing exactly when no later subcategory lists the extension. Otherwise it returns the first one that does. |
| Hierarchical.FindFrom | organizar_v3_subcategorias.py:81-84 | the outer loop finds nothing exactly when no later category declares the extension. Otherwise it returns the first declaring pair in declared order. |
| Hierarchical.Locate | organizar_v3_subcategorias.py:77-86 | `encontrar_ubicacion` returns `('Otros', None)` exactly when no list holds the lower-cased extension. Otherwise it returns the first declaring (category, subcategory) in declared order. |
| Hierarchical.LocateIgnoresCase | organizar_v3_subcategorias.py:79 | extensions that differ only in letter case get the same route |
| Hierarchical.RouteOf | organizar_v3_subcategorias.py:122-123 | a file name is routed to `Otros` exactly when no list holds its lower-cased suffix. Otherwise it goes to the first declaring (category, subcategory). |
| Hierarchical.RouteKey | organizar_v3_subcategorias.py:126-129 | the counter key names the route directory: the bare category, or `Cat/Sub` for a two-level directory |
| Hierarchical.RouteDir | organizar_v3_subcategorias.py:126-129 | the route directory is the category, with the subcategory below it exactly when the subcategory is present and not empty |
| Hierarchical.Target | organizar_v3_subcategorias.py:139-146 | an execute run moves the file into its route directory. It keeps its name exactly when nothing exists at that name there, and otherwise takes the timestamped name. |
| Hierarchical.SubKeys | organizar_v3_subcategorias.py:57-65 | the keys of one category are exactly its `Cat/Sub` keys |
| Hierarchical.DeclaredKeys | organizar_v3_subcategorias.py:56-65 | the declared keys are exactly every `Cat/Sub` key of the taxonomy |
| Hierarchical.InitialCounters | organizar_v3_subcategorias.py:63-73 | the initial `por_subcategoria` has every `Cat/Sub` key and `Otros` and nothing else, all at zero. Each key appears once, in the order it is first assigned: categories and subcategories in declared order, then `Otros`. |
| Hierarchical.RouteKeyIsInitialised | organizar_v3_subcategorias.py:126-133 | in a well-formed taxonomy, every route's key already has a counter, so the `.get` default is never needed |
| Hierarchical.RouteKeyCategory | organizar_v3_subcategorias.py:126-129 | the report groups a route's counter under the route's own category |
| Hierarchical.ProvisionDirs | organizar_v3_subcategorias.py:52-73 | an execute run creates every `Cat/Sub` directory, its parent and `Otros`, and no other directory. A `Cat/Sub` path with an empty subcategory name is the category itself. A dry run changes nothing, and files are never touched. |
| Hierarchical.ProvisionIdempotent | organizar_v3_subcategorias.py:61 | creating the structure a second time changes nothing (`exist_ok`) |
| Hierarchical.RouteDirProvisioned | organizar_v3_subcategorias.py:56-72 | after an execute run's provisioning, the directory of any route exists |
| Hierarchical.ProcessFile | organizar_v3_subcategorias.py:118-155 | the file is counted and its route key rises by one whatever happens. A dry run moves nothing. An execute run either moves the file to its target and counts a move, or counts an error and leaves the folder unchanged. |
| Hierarchical.ProcessAll | organizar_v3_subcategorias.py:107-108 | each key grows by the number of files routed to it. Every file is processed, and in an execute run every file is either a move or an error. |
| Hierarchical.CountersIndependentOfMode | organizar_v3_subcategorias.py:131-136 | the counters do not depend on mode, folder contents or failing moves, so a dry run predicts the execute run's `por_subcategoria` |
| Hierarchical.EveryFileMovedWhenNothingFails | organizar_v3_subcategorias.py:138-151 | when no move raises and the route directories exist, every file of the listing is moved and no error is counted |
| Hierarchical.OverwriteOnRepeatedCollision | organizar_v3_subcategorias.py:142-149 | when both names are taken, the file still moves, replaces the timestamped file, and is counted as a move |
| Hierarchical.Organize | organizar_v3_subcategorias.py:88-113 | the run processes exactly the regular files and the counters sum to that number, as do the report totals. Each counter ends at its initial value plus the number of regular files routed to it. The printed report is the grouping and ordering of the final counters. An execute run's moves plus errors equal the processed count. A dry run moves nothing and leaves the folder as it was. |
| Hierarchical.DryRunPredictsCounters | organizar_v3_subcategorias.py:88-113 | a dry run and an execute run on the same folder end with the same `por_subcategoria` and print the same report, whichever moves fail |
| Hierarchical.RunCommand | organizar_v3_subcategorias.py:228-233 | a missing path means no run. A path that is a regular file passes the existence test, and then an execute run crashes in `crear_estructura` while a dry run ends in the caught "Error crítico". A folder is organised, processing every regular file, and the report sums to that count. |
| Kinds.FirstListing | organizar_archivos_v2.py:89-92 | the search finds nothing exactly when no category lists the extension. Otherwise it returns the first that does. |
| Flat.CategoryFor | organizar_archivos_v2.py:85-92 | the first category listing the extension wins, and `Otros` is the default. The result is always `Otros` or a key of the table. |
| Flat.Classify | organizar_archivos_v2.py:85-92 | the category of a file name is the first listing its lower-cased suffix, `Otros` when none does, and always `Otros` or a key of the table |
| Flat.Target | organizar_archivos_v2.py:95-103 | the file goes into its category folder. It keeps its name exactly when nothing exists at that name there, and otherwise takes the timestamped name. |
| Flat.OtrosOnlyByDefault | organizar_archivos_v2.py:17-25 | with `tipos`, an extension lands in `Otros` exactly when no list holds it |
| Flat.TiposNamesOtros | organizar_archivos_v2.py:24 | `tipos` has an `Otros` key, so every destination has a counter |
| Flat.CreateFolders | organizar_archivos_v2.py:52-57 | every category gets its folder and a zero counter. No other counter exists, and the only new directories are the category folders. The counters are in the table's key order. |
| Flat.ProcessFile | organizar_archivos_v2.py:82-120 | the file is moved exactly when its name does not fail and the move succeeds, and then the folder is the one that move produces. A move raises the category's counter by one. A failure counts an error and changes nothing else, whether or not the category has a counter. A missing counter makes a move also count as an error. |
| Flat.ProcessAll | organizar_archivos_v2.py:72-74 | every file is processed. When every category has a counter, each file is a move or an error and the counters grow by the moves. |
| Flat.Organize | organizar_archivos_v2.py:61-77 | the run processes exactly the regular files. For a table with `Otros`, the files split into moves and errors and the category counters sum to the moves. |
| Flat.RunCommand | organizar_archivos_v2.py:155-160 | a missing path means no run. On a regular file, `crear_carpetas` raises uncaught at its first `mkdir`. With an empty table there is no `mkdir`, and the `try` of `organizar` catches the listing error instead. A folder is organised, processing every regular file. |
| FileSystem.RegularFilesSameFiles | organizar_archivos_v2.py:64-68 | creating the category folders does not change which listed names are regular files |
| Flat.Reported | organizar_archivos_v2.py:132-134 | the report lists exactly the counters above zero, in the dictionary's insertion order, and they sum to the same total |
| Original.CategoryFor | organizar_archivos.py:29-36 | there is no category exactly when no list holds the extension. Otherwise it is the first category that does. |
| Original.Classify | organizar_archivos.py:27-30 | a file name has no category exactly when no list holds its lower-cased suffix. Otherwise its category is the first key that does. |
| Original.Category | organizar_archivos.py:27-30 | the script's category for a file name, when there is one, is a key of `tipos` |
| Original.UndottedEntriesAreDead | organizar_archivos.py:13-16 | no file extension equals `pptx`, `htm` or `webp` |
| Original.DottedFormsUnmatched | organizar_archivos.py:13-16 | `.pptx`, `.htm` and `.webp` match no category of `tipos` |
| Original.CreateFolders | organizar_archivos.py:20-21 | every category folder exists afterwards, no other directory is created, and the files are untouched |
| Original.Matched | organizar_archivos.py:25-30 | the names the loop acts on are at most the listing |
| Original.MatchedMembers | organizar_archivos.py:25-30 | the loop acts on exactly the listed regular files whose extension some category lists |
| Original.MatchedFrame | organizar_archivos.py:25-26 | which names are acted on depends only on which listed names are regular files |
| Original.CleanPrefix | organizar_archivos.py:29-36 | the moves before the first raising one: none of them raises, and the next one does |
| Original.CleanPrefixCons | organizar_archivos.py:29-36 | the first matched file either raises or adds one move |
| Original.MatchedStep | organizar_archivos.py:26-36 | on a regular file with a category, the move fails exactly when the category folder is missing. The run's clean moves stop at this file when it raises, and otherwise count it and go on. |
| Original.MovePreservesOthers | organizar_archivos.py:31-33 | moving one file into a category folder leaves the other listed top-level files and their contents alone |
| Original.MoveKeepsMatched | organizar_archivos.py:25-33 | a move does not change which later names the loop acts on |
| Original.MoveAll | organizar_archivos.py:25-36 | the matched files move in listing order until the first one that raises. The run ends normally exactly when none raises. The move count is the number that moved, and a crash names the first raising file. |
| Original.MovedFilesLand | organizar_archivos.py:31-33 | every file moved is gone from the folder and sits in its category folder under its own name with its contents |
| Original.LaterMovesKeep | organizar_archivos.py:31-33 | the moves of other files neither bring a moved file back nor touch its new place |
| Original.OthersStay | organizar_archivos.py:25-36 | a top-level file that is not moved before the run ends keeps its contents in place |
| Original.OthersStayPastMove | organizar_archivos.py:25-36 | the same, when the first file of the listing moves cleanly and is not that file |
| Original.PastCleanMove | organizar_archivos.py:25-33 | after a clean move of the first file, the loop goes on from the snapshot that move produced, with the count one higher and the same later names to act on |
| Original.OrganizeDownloads | organizar_archivos.py:6-38 | the run ends normally exactly when no acted-on file fails, and then every acted-on file is counted. Otherwise it stops at the first failing file, having moved those before it. |
| Original.RunScript | organizar_archivos.py:41-43 | the script has no existence test. A missing path or a regular file ends in an uncaught exception from the first `mkdir` (line 21), before any file is touched. A folder gives the run `Original.OrganizeDownloads` describes. |
| Original.CountedFilesLand | organizar_archivos.py:31-34 | every file the run counts as moved has landed in its category folder |
| Original.UnmatchedFilesStay | organizar_archivos.py:29-30 | a regular file that no category lists is left untouched, however the run ends |
| Original.UndottedKindsStay | organizar_archivos.py:13-30 | a `.pptx`, `.htm` or `.webp` file is never organised |

## Left out

- `dashboard.py` is not part of this model. It only reads the JSON reports.
- Console output, the log file (`log`), the JSON report (`guardar_reporte`, `generar_reporte`'s file), `argparse` and `logs/` creation are left out. They are I/O, and the model keeps the values they show (statistics, report groups).
- `datetime.now()` is an opaque timestamp parameter.
  - Its `%Y%m%d_%H%M%S` shape only matters through having no dot, which `Names.TimestampedNameSplits` requires.
- The outer `except Exception` of v2 `organizar` is left out, and so is v3's for any error other than the one below. They guard listing and reporting errors, which the snapshot cannot produce.
  - v3's handler is modelled for one case: `os.listdir` on a root that is a regular file (organizar_v3_subcategorias.py:100, 115). That case ends in `Hierarchical.RunCommand`'s `Failed` exit.
- Names.Lower: folds ASCII letters only, because Unicode case mapping is out of scope. This is not lossless: Python lower-cases some non-ASCII letters to ASCII ones, such as U+212A KELVIN SIGN to `k`. A file named `clip.m\u212Av` goes to `Multimedia/Videos` in the source but to `Otros` in the model.
- FileSystem.Move: treats the target as a file path. It does not model a target that is an existing directory, nor moves across file systems.
  - When the target is a directory, `shutil.move` puts the file inside it, under its own name. If that directory already holds an entry of that name, `shutil.move` raises `shutil.Error` instead.
  - The organizers never check for this. v1 moves to `carpeta/categoria/archivo` without a test (organizar_archivos.py:32-33). v2 and v3 test the plain target with `os.path.exists`, which is also true of a directory, but never test the timestamped one.
  - So in a run where a category folder already holds a directory named like a moved file (v1) or like its timestamped name (v2, v3), the model places the file at the directory's path instead of inside it.
  - In such runs `Original.MovedFilesLand`, `Original.CountedFilesLand` and the landing statements of `Flat.ProcessFile` and `Hierarchical.ProcessFile` describe the model, not the program.
- `mkdir(exist_ok=True)` failing because a regular file has a category's name is not modelled. Provisioning adds the directory regardless.
- The text rendering of the v3 report is left out. `Report.Build` returns the groups in print order, each with its total and its items in sorted order. An item line is printed only when the item's key has a `/` (organizar_v3_subcategorias.py:190-192), showing `key.split('/')[1]`. So the `Otros` entry, which has no slash, counts toward its group's total but prints no line of its own, although it is among the group's `items`.
- Flat.Organize: its balance of moves, errors and counters is stated only for tables that have an `Otros` key. Without one, the `KeyError` path counts a file as both moved and an error.
- Hierarchical.Organize: does not state where each file ends up. `Hierarchical.EveryFileMovedWhenNothingFails` and `Hierarchical.ProcessFile` give the per-file outcome.

=== FILE: counters.dfy ===
/** The statistics dictionaries (`por_subcategoria`, `por_categoria`): string keys
    mapped to counts. Python dictionaries remember insertion order, and the console
    report depends on it, so a counter is a sequence of entries in insertion order. */
module Counters {
  import opened Seqs

  datatype Entry = Entry(key: string, count: nat)

  type Counter = seq<Entry>

  /** The keys, in insertion order. */
  function Keys(c: Counter): seq<string> {
    seq(|c|, i requires 0 <= i < |c| => c[i].key)
  }

  /** `d.get(k, 0)`: the count stored under `k`, or 0 when `k` is absent. */
  function Get(c: Counter, k: string): nat {
    if |c| == 0 then 0
    else if c[0].key == k then c[0].count
    else Get(c[1..], k)
  }

  /** Sum of all counts. */
  function Total(c: Counter): nat {
    if |c| == 0 then 0 else c[0].count + Total(c[1..])
  }

  /** `d[k] = v`: an existing key keeps its position, a new key goes last. */
  function Put(c: Counter, k: string, v: nat): (r: Counter)
    ensures Get(r, k) == v
    ensures forall k' :: k' != k ==> Get(r, k') == Get(c, k')
    ensures k in Keys(c) ==> Keys(r) == Keys(c)
    ensures k !in Keys(c) ==> Keys(r) == Keys(c) + [k]
    ensures Total(r) == Total(c) - Get(c, k) + v
  {
    if |c| == 0 then [Entry(k, v)]
    else if c[0].key == k then
      assert Keys(c)[0] == k;
      [Entry(k, v)] + c[1..]
    else
      var rest := Put(c[1..], k, v);
      assert Keys(c) == [c[0].key] + Keys(c[1..]);
      assert Keys([c[0]] + rest) == [c[0].key] + Keys(rest);
      [c[0]] + rest
  }

  /** `d[k] = d.get(k, 0) + 1`: one more under `k`, nothing else changes. */
  function Increment(c: Counter, k: string): (r: Counter)
    ensures Get(r, k) == Get(c, k) + 1
    ensures forall k' :: k' != k ==> Get(r, k') == Get(c, k')
    ensures k in Keys(c) ==> Keys(r) == Keys(c)
    ensures Total(r) == Total(c) + 1
  {
    Put(c, k, Get(c, k) + 1)
  }

  /** The keys of `ks` that are not in `seen`, each once, in order of first
      occurrence: what a run of assignments over `ks` adds to a dictionary whose
      keys are `seen`. */
  function NewKeys(seen: seq<string>, ks: seq<string>): (r: seq<string>)
    ensures forall k :: k in r <==> k in ks && k !in seen
    ensures Distinct(r)
    decreases |ks|
  {
    if |ks| == 0 then []
    else if ks[0] in seen then NewKeys(seen, ks[1..])
    else
      var rest := NewKeys(seen + [ks[0]], ks[1..]);
      assert ([ks[0]] + rest)[1..] == rest;
      [ks[0]] + rest
  }

  /** Sets every key of `ks` to zero, in order (the counter initialisation loops). */
  function ZeroAll(c: Counter, ks: seq<string>): (r: Counter)
    ensures forall k :: k in ks ==> Get(r, k) == 0
    ensures forall k :: k !in ks ==> Get(r, k) == Get(c, k)
    ensures forall k :: k in Keys(r) <==> k in Keys(c) || k in ks
    ensures Total(c) == 0 ==> Total(r) == 0
    decreases |ks|
  {
    if |ks| == 0 then c else ZeroAll(Put(c, ks[0], 0), ks[1..])
  }

  /** The keys `ZeroAll` adds go after the existing ones, each once, in the order of `ks`. */
  lemma {:induction false} ZeroAllKeys(c: Counter, ks: seq<string>)
    ensures Keys(ZeroAll(c, ks)) == Keys(c) + NewKeys(Keys(c), ks)
    decreases |ks|
  {
    if |ks| > 0 {
      var c' := Put(c, ks[0], 0);
      ZeroAllKeys(c', ks[1..]);
      NewKeysStep(ks, Keys(c), Keys(c'));
    }
  }

  /** One assignment: a key already held adds nothing, a new key goes last. */
  lemma NewKeysStep(ks: seq<string>, before: seq<string>, after: seq<string>)
    requires |ks| > 0
    requires after == if ks[0] in before then before else before + [ks[0]]
    ensures after + NewKeys(after, ks[1..]) == before + NewKeys(before, ks)
  {
    if ks[0] !in before {
      var rest := NewKeys(after, ks[1..]);
      assert before + ([ks[0]] + rest) == (before + [ks[0]]) + rest;
    }
  }

  /** The total of a counter splits at its last entry. */
  lemma {:induction false} TotalSnoc(c: Counter, e: Entry)
    ensures Total(c + [e]) == Total(c) + e.count
    decreases |c|
  {
    if |c| == 0 {
      assert c + [e] == [e];
    } else {
      assert (c + [e])[1..] == c[1..] + [e];
      TotalSnoc(c[1..], e);
    }
  }
}

=== FILE: filesystem.dfy ===
/** The abstract directory snapshot the organizers act on. A path is the list of
    its components below the folder being organised (`["Documentos", "PDFs",
    "report.pdf"]` for `carpeta/Documentos/PDFs/report.pdf`); each regular file
    carries the identity of its contents, so that replacing a file is visible. */
module FileSystem {
  import opened Wrappers
  import opened Seqs

  type Path = seq<string>

  type FileId = nat

  datatype Snapshot = Snapshot(files: map<Path, FileId>, dirs: set<Path>)

  /** What the path to organise names when a run starts. */
  datatype Root = Absent | RegularFile | Folder

  /** How an entry point ends: the existence test turns the path away, an
      exception escapes, the `try` around the listing catches one (no report),
      or the run completes with result `run`. */
  datatype Exit<R> = NoFolder | Raised | Failed | Completed(run: R)

  /** `os.path.exists`: a regular file or a directory is there. */
  predicate Exists(fs: Snapshot, p: Path) {
    p in fs.files || p in fs.dirs
  }

  /** The folder being organised always exists; any other directory must be listed. */
  predicate DirExists(fs: Snapshot, p: Path) {
    p == [] || p in fs.dirs
  }

  /** `shutil.move` of a regular file onto a file path, as on POSIX: it fails when
      the source is not a file or the target directory is missing, and otherwise
      the source disappears and the target holds its contents, replacing any file
      that was there. */
  function Move(fs: Snapshot, src: Path, dst: Path): (r: Option<Snapshot>)
    ensures r.Some? <==> src in fs.files && |dst| > 0 && DirExists(fs, dst[..|dst| - 1])
    ensures r.Some? ==>
      && r.value.dirs == fs.dirs
      && dst in r.value.files && r.value.files[dst] == fs.files[src]
      && (src != dst ==> src !in r.value.files)
      && forall p :: p != src && p != dst ==>
           (p in r.value.files <==> p in fs.files) && (p in fs.files ==> r.value.files[p] == fs.files[p])
  {
    if src in fs.files && |dst| > 0 && DirExists(fs, dst[..|dst| - 1]) then
      Some(Snapshot((fs.files - {src})[dst := fs.files[src]], fs.dirs))
    else
      None
  }

  /** The `os.path.isfile` filter over a directory listing: the names that are
      regular files directly inside the folder, in listing order. */
  function RegularFiles(fs: Snapshot, listing: seq<string>): (r: seq<string>)
    ensures forall n :: n in r <==> n in listing && [n] in fs.files
    ensures |r| <= |listing|
    ensures Distinct(listing) ==> Distinct(r)
    ensures Subsequence(r, listing)
  {
    if |listing| == 0 then []
    else if [listing[0]] in fs.files then [listing[0]] + RegularFiles(fs, listing[1..])
    else RegularFiles(fs, listing[1..])
  }

  /** Creating directories leaves the regular files, and so the filtered listing, as they were. */
  lemma {:induction false} RegularFilesSameFiles(a: Snapshot, b: Snapshot, listing: seq<string>)
    requires a.files == b.files
    ensures RegularFiles(a, listing) == RegularFiles(b, listing)
    decreases |listing|
  {
    if |listing| > 0 {
      RegularFilesSameFiles(a, b, listing[1..]);
    }
  }
}

=== FILE: flat.dfy ===
/** The flat organizer (`OrganizadorArchivos`): one level of categories, the
    first category whose list holds the extension winning and `Otros` otherwise;
    every regular file is moved, and the per-category counter only grows when
    the move succeeds. */
module Flat {
  import opened Wrappers
  import opened Names
  import opened Counters
  import opened FileSystem
  import opened Relocation
  import opened Kinds
  import opened Seqs

  /** The `tipos` table of the organizer; `Otros` lists nothing. */
  const Tipos: Table := [
    Kind("Imagenes", [".jpg", ".jpeg", ".png", ".gif", ".bmp", ".svg", ".webp"]),
    Kind("Documentos", [".pdf", ".docx", ".txt", ".xlsx", ".pptx", ".doc"]),
    Kind("Videos", [".mp4", ".avi", ".mov", ".mkv", ".flv"]),
    Kind("Audio", [".mp3", ".wav", ".flac", ".m4a"]),
    Kind("Comprimidos", [".zip", ".rar", ".7z", ".tar", ".gz"]),
    Kind("Codigo", [".py", ".js", ".html", ".css", ".java", ".cpp"]),
    Kind("Otros", [])
  ]

  /** The category for a lower-cased extension: the first in declared order
      whose list holds it, `Otros` when none does. */
  function CategoryFor(t: Table, e: string): (cat: string)
    ensures (forall i :: !Lists(t, i, e)) ==> cat == Otros
    ensures forall i :: FirstLists(t, i, e) ==> cat == t[i].name
    ensures cat == Otros || cat in KindNames(t)
  {
    match FirstListing(t, e)
    case Some(j) =>
      assert forall i :: FirstLists(t, i, e) ==> i == j;
      assert KindNames(t)[j] == t[j].name;
      t[j].name
    case None => Otros
  }

  /** `procesar_archivo`'s classification: the extension is lower-cased first. */
  function Classify(t: Table, name: string): (cat: string)
    ensures (forall i :: !Lists(t, i, Lower(Suffix(name)))) ==> cat == Otros
    ensures forall i :: FirstLists(t, i, Lower(Suffix(name))) ==> cat == t[i].name
    ensures cat == Otros || cat in KindNames(t)
  {
    CategoryFor(t, Lower(Suffix(name)))
  }

  /** In `tipos`, `Otros` has an empty list and no other category is called
      `Otros`: an extension lands there exactly when no list holds it. */
  lemma OtrosOnlyByDefault(e: string)
    ensures CategoryFor(Tipos, e) == Otros <==> forall i :: !Lists(Tipos, i, e)
  {
    var r := FirstListing(Tipos, e);
    if r.Some? {
      var i := r.value;
      assert Lists(Tipos, i, e) && i < 6;
      assert FirstLists(Tipos, i, e);
      assert Tipos[0].name == "Imagenes" && Tipos[1].name == "Documentos" && Tipos[2].name == "Videos";
      assert Tipos[3].name == "Audio" && Tipos[4].name == "Comprimidos" && Tipos[5].name == "Codigo";
    }
  }

  /** The run's fixed parameters: table, timestamp, and the names whose move raises. */
  datatype Settings = Settings(table: Table, timestamp: string, failing: set<string>)

  datatype Stats = Stats(processed: nat, moved: nat, errors: nat, byCategory: Counter)

  datatype State = State(stats: Stats, fs: Snapshot)

  /** Every category of the table, and `Otros`, has a counter. */
  predicate Covers(t: Table, c: Counter) {
    Otros in Keys(c) && forall i :: 0 <= i < |t| ==> t[i].name in Keys(c)
  }

  /** `crear_carpetas` on the freshly initialised statistics: one directory and
      one zero counter per key of the table, in declared order. */
  function CreateFolders(t: Table, fs: Snapshot): (st: State)
    ensures st.stats.processed == 0 && st.stats.moved == 0 && st.stats.errors == 0
    ensures Total(st.stats.byCategory) == 0
    ensures forall i :: 0 <= i < |t| ==> [t[i].name] in st.fs.dirs && t[i].name in Keys(st.stats.byCategory)
    ensures forall k :: k in Keys(st.stats.byCategory) ==> k in KindNames(t)
    ensures Keys(st.stats.byCategory) == NewKeys([], KindNames(t))
    ensures st.fs.files == fs.files
    ensures forall p :: p in st.fs.dirs <==> p in fs.dirs || (|p| == 1 && p[0] in KindNames(t))
  {
    var dirs := set i | 0 <= i < |t| :: [t[i].name];
    var counters := ZeroAll([], KindNames(t));
    ZeroAllKeys([], KindNames(t));
    assert Keys([]) == [];
    assert forall i :: 0 <= i < |t| ==> t[i].name in KindNames(t) by {
      forall i | 0 <= i < |t| ensures t[i].name in KindNames(t) {
        assert KindNames(t)[i] == t[i].name;
      }
    }
    assert forall p :: |p| == 1 && p[0] in KindNames(t) ==> p in dirs by {
      forall p | |p| == 1 && p[0] in KindNames(t) ensures p in dirs {
        var i :| 0 <= i < |t| && KindNames(t)[i] == p[0];
        assert p == [t[i].name];
      }
    }
    State(Stats(0, 0, 0, counters), Snapshot(fs.files, fs.dirs + dirs))
  }

  /** Where `name` is moved: its category folder, under the timestamped name if
      the plain one is taken. */
  function Target(s: Settings, fs: Snapshot, name: string): (dst: Path)
    ensures |dst| == 2 && dst[0] == Classify(s.table, name)
    ensures dst[1] == name || dst[1] == TimestampedName(name, s.timestamp)
    ensures dst[1] == name <==> !Exists(fs, [Classify(s.table, name), name])
  {
    var dir := [Classify(s.table, name)];
    var dst := Destination(fs, dir, name, s.timestamp);
    assert dst == dst[..1] + [dst[1]];
    assert dir + [name] == [Classify(s.table, name), name];
    dst
  }

  /** One iteration of the `organizar` loop: count the file, then `procesar_archivo`
      moves it; after a successful move the file is counted as moved and its
      category counter grows, unless the category has no counter, in which case
      the `KeyError` is counted as an error after the move. */
  function ProcessFile(s: Settings, st: State, name: string): (st': State)
    ensures st'.stats.processed == st.stats.processed + 1
    ensures Keys(st'.stats.byCategory) == Keys(st.stats.byCategory)
    ensures var cat := Classify(s.table, name);
      cat in Keys(st.stats.byCategory) ==>
        || (&& st'.stats.moved == st.stats.moved + 1 && st'.stats.errors == st.stats.errors
            && Get(st'.stats.byCategory, cat) == Get(st.stats.byCategory, cat) + 1
            && (forall k :: k != cat ==> Get(st'.stats.byCategory, k) == Get(st.stats.byCategory, k))
            && Total(st'.stats.byCategory) == Total(st.stats.byCategory) + 1
            && Move(st.fs, [name], Target(s, st.fs, name)) == Some(st'.fs))
        || (&& st'.stats.errors == st.stats.errors + 1 && st'.stats.moved == st.stats.moved
            && st'.stats.byCategory == st.stats.byCategory && st'.fs == st.fs)
    ensures Classify(s.table, name) !in Keys(st.stats.byCategory) ==>
      st'.stats.errors == st.stats.errors + 1 && st'.stats.byCategory == st.stats.byCategory
    ensures st'.stats.moved == st.stats.moved + 1 <==>
      name !in s.failing && Move(st.fs, [name], Target(s, st.fs, name)).Some?
    ensures st'.stats.moved == st.stats.moved + 1 ==> Move(st.fs, [name], Target(s, st.fs, name)) == Some(st'.fs)
    ensures st'.stats.moved != st.stats.moved + 1 ==>
      st'.stats.moved == st.stats.moved && st'.stats.errors == st.stats.errors + 1
      && st'.stats.byCategory == st.stats.byCategory && st'.fs == st.fs
  {
    var cat := Classify(s.table, name);
    var seen := st.stats.(processed := st.stats.processed + 1);
    if name in s.failing then State(seen.(errors := seen.errors + 1), st.fs)
    else
      match Move(st.fs, [name], Target(s, st.fs, name))
      case None => State(seen.(errors := seen.errors + 1), st.fs)
      case Some(fs') =>
        var moved := seen.(moved := seen.moved + 1);
        if cat in Keys(st.stats.byCategory) then
          State(moved.(byCategory := Increment(st.stats.byCategory, cat)), fs')
        else
          State(moved.(errors := moved.errors + 1), fs')
  }

  /** The `for archivo in archivos` loop. When every category has a counter,
      each file is either moved or an error, and the counters add up to the moves. */
  function ProcessAll(s: Settings, st: State, files: seq<string>): (st': State)
    ensures st'.stats.processed == st.stats.processed + |files|
    ensures Keys(st'.stats.byCategory) == Keys(st.stats.byCategory)
    ensures Covers(s.table, st.stats.byCategory) ==>
      && st'.stats.moved + st'.stats.errors == st.stats.moved + st.stats.errors + |files|
      && Total(st'.stats.byCategory) + st.stats.moved == Total(st.stats.byCategory) + st'.stats.moved
    decreases |files|
  {
    if |files| == 0 then st
    else
      var st1 := ProcessFile(s, st, files[0]);
      assert Covers(s.table, st.stats.byCategory) ==> Classify(s.table, files[0]) in Keys(st.stats.byCategory) by {
        if Covers(s.table, st.stats.byCategory) && Classify(s.table, files[0]) != Otros {
          var i :| 0 <= i < |s.table| && KindNames(s.table)[i] == Classify(s.table, files[0]);
        }
      }
      ProcessAll(s, st1, files[1..])
  }

  /** `organizar`: create the folders and counters, then process the regular files
      in listing order. With a table that names `Otros`, as `tipos` does, every
      file is a move or an error and the category counters sum to the moves. */
  function Organize(s: Settings, fs: Snapshot, listing: seq<string>): (st: State)
    ensures st.stats.processed == |RegularFiles(fs, listing)|
    ensures Otros in KindNames(s.table) ==>
      st.stats.processed == st.stats.moved + st.stats.errors && Total(st.stats.byCategory) == st.stats.moved
  {
    var st0 := CreateFolders(s.table, fs);
    assert RegularFiles(st0.fs, listing) == RegularFiles(fs, listing) by {
      RegularFilesSameFiles(fs, st0.fs, listing);
    }
    assert Otros in KindNames(s.table) ==> Covers(s.table, st0.stats.byCategory) by {
      if Otros in KindNames(s.table) {
        var i :| 0 <= i < |s.table| && KindNames(s.table)[i] == Otros;
        assert s.table[i].name == Otros;
      }
    }
    ProcessAll(s, st0, RegularFiles(st0.fs, listing))
  }

  /** The `__main__` block. The `os.path.exists` test only rules out a missing
      path. On a regular file, `crear_carpetas` raises at its first `mkdir`, which
      no `try` guards; with an empty table there is no `mkdir`, and `os.listdir`
      raises inside the `try` of `organizar`, which logs the error and writes no
      report. A folder is organised. */
  function RunCommand(root: Root, s: Settings, fs: Snapshot, listing: seq<string>): (r: Exit<State>)
    ensures r.NoFolder? <==> root == Absent
    ensures r.Raised? <==> root == RegularFile && |s.table| > 0
    ensures r.Failed? <==> root == RegularFile && |s.table| == 0
    ensures r.Completed? <==> root == Folder
    ensures r.Completed? ==> r.run.stats.processed == |RegularFiles(fs, listing)|
  {
    match root
    case Absent => NoFolder
    case RegularFile => if |s.table| > 0 then Raised else Failed
    case Folder => Completed(Organize(s, fs, listing))
  }

  /** The per-category lines of `generar_reporte`: the counters above zero, in
      insertion order. Leaving out the zeros loses nothing of the total. */
  function Reported(c: Counter): (r: Counter)
    ensures forall e :: e in r <==> e in c && e.count > 0
    ensures Subsequence(r, c)
    ensures Total(r) == Total(c)
    ensures |r| <= |c|
  {
    if |c| == 0 then []
    else if c[0].count > 0 then
      var rest := Reported(c[1..]);
      assert ([c[0]] + rest)[1..] == rest;
      [c[0]] + rest
    else Reported(c[1..])
  }

  /** `tipos` names `Otros`, so the balance of `Organize` holds for the organizer's own table. */
  lemma TiposNamesOtros()
    ensures Otros in KindNames(Tipos)
  {
    assert KindNames(Tipos)[6] == Otros;
  }
}

=== FILE: hierarchical.dfy ===
/** The hierarchical organizer (`OrganizadorJerarquico`): a two-level taxonomy
    routes each regular file of a folder to `Categoria/Subcategoria`, or to
    `Otros` when no list names its extension; a dry run only counts, an execute
    run also moves. The whole run is a fold over the file names against a
    directory snapshot. */
module Hierarchical {
  import opened Wrappers
  import opened Names
  import opened Counters
  import opened FileSystem
  import opened Seqs
  import opened Relocation
  import opened Kinds
  import Report

  datatype Subcategory = Subcategory(name: string, extensions: seq<string>)

  datatype Category = Category(name: string, subcategories: seq<Subcategory>)

  /** Categories and, inside each, subcategories, in declared order. */
  type Taxonomy = seq<Category>

  /** The `estructura` table of the organizer, one constant per category. */
  const Estructura: Taxonomy := [Imagenes, Documentos, Multimedia, Archivos]

  const Imagenes: Category := Category("Imagenes", [
    Subcategory("Fotos", [".jpg", ".jpeg", ".heic"]),
    Subcategory("Graficos", [".png", ".svg", ".webp"]),
    Subcategory("Animaciones", [".gif"])])

  const Documentos: Category := Category("Documentos", [
    Subcategory("PDFs", [".pdf"]),
    Subcategory("Excel", [".xlsx", ".xls", ".xlsm", ".csv"]),
    Subcategory("Word", [".docx", ".doc", ".odt"]),
    Subcategory("Presentaciones", [".pptx", ".ppt"]),
    Subcategory("Textos", [".txt", ".md", ".rtf"])])

  const Multimedia: Category := Category("Multimedia", [
    Subcategory("Videos", [".mp4", ".avi", ".mov", ".mkv", ".flv"]),
    Subcategory("Audio", [".mp3", ".wav", ".flac", ".m4a", ".aac"])])

  const Archivos: Category := Category("Archivos", [
    Subcategory("Comprimidos", [".zip", ".rar", ".7z", ".tar", ".gz"]),
    Subcategory("Codigo", [".py", ".js", ".html", ".css", ".java", ".cpp", ".sh"]),
    Subcategory("Ejecutables", [".exe", ".dmg", ".app", ".deb"])])

  /** Where a file goes: a category and, except for the fallback, a subcategory. */
  datatype Route = Route(category: string, subcategory: Option<string>)

  const Fallback: Route := Route(Otros, None)

  // ---------------------------------------------------------------------------
  // Lookup (`encontrar_ubicacion`)

  /** Subcategory `j` of category `i` lists extension `e`. */
  ghost predicate Declares(t: Taxonomy, i: int, j: int, e: string) {
    0 <= i < |t| && 0 <= j < |t[i].subcategories| && e in t[i].subcategories[j].extensions
  }

  /** Declared order: category first, then subcategory. */
  ghost predicate Before(i': int, j': int, i: int, j: int) {
    i' < i || (i' == i && j' < j)
  }

  /** `(i, j)` is the first pair in declared order whose list holds `e`. */
  ghost predicate FirstDeclaring(t: Taxonomy, i: int, j: int, e: string) {
    Declares(t, i, j, e) && forall i', j' :: Before(i', j', i, j) ==> !Declares(t, i', j', e)
  }

  function RouteAt(t: Taxonomy, i: int, j: int): Route
    requires 0 <= i < |t| && 0 <= j < |t[i].subcategories|
  {
    Route(t[i].name, Some(t[i].subcategories[j].name))
  }

  /** The inner loop: subcategories of category `i` from `j` on. */
  function FindInCategory(t: Taxonomy, i: int, j: int, e: string): (r: Option<Route>)
    requires 0 <= i < |t| && 0 <= j <= |t[i].subcategories|
    ensures r.None? <==> forall j' :: j <= j' ==> !Declares(t, i, j', e)
    ensures r.Some? ==> exists j' :: j <= j' && Declares(t, i, j', e) && r.value == RouteAt(t, i, j')
                                  && forall j'' :: j <= j'' < j' ==> !Declares(t, i, j'', e)
    decreases |t[i].subcategories| - j
  {
    if j == |t[i].subcategories| then None
    else if e in t[i].subcategories[j].extensions then
      assert Declares(t, i, j, e);
      Some(RouteAt(t, i, j))
    else FindInCategory(t, i, j + 1, e)
  }

  /** The outer loop: categories from `i` on. */
  function FindFrom(t: Taxonomy, i: int, e: string): (r: Option<Route>)
    requires 0 <= i <= |t|
    ensures r.None? <==> forall i', j :: i <= i' ==> !Declares(t, i', j, e)
    ensures r.Some? ==> exists i', j :: i <= i' && Declares(t, i', j, e) && r.value == RouteAt(t, i', j)
                                     && forall i'', j'' :: i <= i'' && Before(i'', j'', i', j) ==> !Declares(t, i'', j'', e)
    decreases |t| - i
  {
    if i == |t| then None
    else
      match FindInCategory(t, i, 0, e)
      case Some(r) =>
        assert exists i', j :: i <= i' && Declares(t, i', j, e) && r == RouteAt(t, i', j)
                             && forall i'', j'' :: i <= i'' && Before(i'', j'', i', j) ==> !Declares(t, i'', j'', e) by {
          var j :| 0 <= j && Declares(t, i, j, e) && r == RouteAt(t, i, j)
                   && forall j'' :: 0 <= j'' < j ==> !Declares(t, i, j'', e);
          assert forall i'', j'' :: i <= i'' && Before(i'', j'', i, j) ==> !Declares(t, i'', j'', e);
        }
        Some(r)
      case None =>
        var rest := FindFrom(t, i + 1, e);
        assert forall j :: !Declares(t, i, j, e);
        rest
  }

  /** `encontrar_ubicacion`: the first declared (category, subcategory) whose list
      holds the lower-cased extension, or `('Otros', None)` when none does. */
  function Locate(t: Taxonomy, extension: string): (r: Route)
    ensures r == Fallback <==> forall i, j :: !Declares(t, i, j, Lower(extension))
    ensures r != Fallback ==> exists i, j :: FirstDeclaring(t, i, j, Lower(extension)) && r == RouteAt(t, i, j)
  {
    match FindFrom(t, 0, Lower(extension))
    case Some(route) => route
    case None => Fallback
  }

  /** Extensions that differ only in letter case are routed alike. */
  lemma LocateIgnoresCase(t: Taxonomy, extension: string)
    ensures Locate(t, extension) == Locate(t, Lower(extension))
  {
    LowerIdempotent(extension);
  }

  /** The route of a file name, from its `Path.suffix`. */
  function RouteOf(t: Taxonomy, name: string): (r: Route)
    ensures r == Fallback <==> forall i, j :: !Declares(t, i, j, Lower(Suffix(name)))
    ensures r != Fallback ==> exists i, j :: FirstDeclaring(t, i, j, Lower(Suffix(name))) && r == RouteAt(t, i, j)
  {
    var e := Suffix(name);
    var r := Locate(t, e);
    assert Lower(e) == Lower(Suffix(name));
    r
  }

  // ---------------------------------------------------------------------------
  // Statistics keys and directories

  /** `ruta_destino`: `"Cat/Sub"`, or the bare category when the subcategory is
      `None` (or empty, which Python also treats as false). */
  function RouteKey(r: Route): (k: string)
    ensures RouteDir(r) == [r.category] ==> k == r.category
    ensures |RouteDir(r)| == 2 ==> k == RouteDir(r)[0] + "/" + RouteDir(r)[1]
  {
    match r.subcategory
    case Some(s) => if s != "" then r.category + "/" + s else r.category
    case None => r.category
  }

  /** The directory of a route below the organised folder. */
  function RouteDir(r: Route): (d: Path)
    ensures 1 <= |d| <= 2 && d[0] == r.category
    ensures |d| == 2 <==> r.subcategory.Some? && r.subcategory.value != ""
    ensures |d| == 2 ==> d[1] == r.subcategory.value
  {
    match r.subcategory
    case Some(s) => if s != "" then [r.category, s] else [r.category]
    case None => [r.category]
  }

  /** Names usable as path components: not empty and free of `/`. */
  predicate PlainName(s: string) {
    s != "" && '/' !in s
  }

  /** A category whose name and subcategory names are plain. */
  ghost predicate PlainCategory(c: Category) {
    PlainName(c.name) && forall j :: 0 <= j < |c.subcategories| ==> PlainName(c.subcategories[j].name)
  }

  ghost predicate WellFormed(t: Taxonomy) {
    forall i :: 0 <= i < |t| ==> PlainCategory(t[i])
  }

  /** The counter keys of category `i`'s subcategories from `j` on, in declared order. */
  function SubKeys(t: Taxonomy, i: int, j: int): (ks: seq<string>)
    requires 0 <= i < |t| && 0 <= j <= |t[i].subcategories|
    ensures forall k :: k in ks <==> exists j' :: j <= j' < |t[i].subcategories| && k == t[i].name + "/" + t[i].subcategories[j'].name
    decreases |t[i].subcategories| - j
  {
    if j == |t[i].subcategories| then []
    else [t[i].name + "/" + t[i].subcategories[j].name] + SubKeys(t, i, j + 1)
  }

  /** Every `"Cat/Sub"` key of categories `i` onwards, in declared order. */
  function DeclaredKeys(t: Taxonomy, i: int): (ks: seq<string>)
    requires 0 <= i <= |t|
    ensures forall k :: k in ks <==>
      exists i', j :: i <= i' < |t| && 0 <= j < |t[i'].subcategories| && k == t[i'].name + "/" + t[i'].subcategories[j].name
    decreases |t| - i
  {
    if i == |t| then [] else SubKeys(t, i, 0) + DeclaredKeys(t, i + 1)
  }

  /** The counter part of `crear_estructura`: every declared key, then `Otros`, set to 0.
      The dictionary holds each key once, where it was first assigned, so the
      keys follow the declared order of categories and subcategories. */
  function InitialCounters(t: Taxonomy): (c: Counter)
    ensures Total(c) == 0
    ensures Otros in Keys(c)
    ensures forall i, j :: 0 <= i < |t| && 0 <= j < |t[i].subcategories| ==>
      t[i].name + "/" + t[i].subcategories[j].name in Keys(c)
    ensures forall k :: k in Keys(c) ==> k == Otros || k in DeclaredKeys(t, 0)
    ensures Keys(c) == NewKeys([], DeclaredKeys(t, 0) + [Otros])
    ensures Distinct(Keys(c))
  {
    var c := ZeroAll([], DeclaredKeys(t, 0) + [Otros]);
    ZeroAllKeys([], DeclaredKeys(t, 0) + [Otros]);
    assert Keys([]) == [];
    c
  }

  /** The organizer's own table is well formed, so the lemmas that need it apply to it. */
  lemma EstructuraWellFormed()
    ensures WellFormed(Estructura)
  {
    ImagenesPlain();
    DocumentosPlain();
    MultimediaPlain();
    ArchivosPlain();
    assert Estructura[0] == Imagenes && Estructura[1] == Documentos;
    assert Estructura[2] == Multimedia && Estructura[3] == Archivos;
  }

  lemma ImagenesPlain()
    ensures PlainCategory(Imagenes)
  {
    var subs := Imagenes.subcategories;
    assert PlainName(subs[0].name) && PlainName(subs[1].name) && PlainName(subs[2].name);
  }

  lemma DocumentosPlain()
    ensures PlainCategory(Documentos)
  {
    var subs := Documentos.subcategories;
    assert PlainName(subs[0].name) && PlainName(subs[1].name) && PlainName(subs[2].name);
    assert PlainName(subs[3].name) && PlainName(subs[4].name);
  }

  lemma MultimediaPlain()
    ensures PlainCategory(Multimedia)
  {
    var subs := Multimedia.subcategories;
    assert PlainName(subs[0].name) && PlainName(subs[1].name);
  }

  lemma ArchivosPlain()
    ensures PlainCategory(Archivos)
  {
    var subs := Archivos.subcategories;
    assert PlainName(subs[0].name) && PlainName(subs[1].name) && PlainName(subs[2].name);
  }

  /** In a well-formed taxonomy, whatever route a lookup returns already has its
      counter: no statistics key is created while files are processed. */
  lemma RouteKeyIsInitialised(t: Taxonomy, extension: string)
    requires WellFormed(t)
    ensures RouteKey(Locate(t, extension)) in Keys(InitialCounters(t))
  {
    var r := Locate(t, extension);
    if r != Fallback {
      var i, j :| FirstDeclaring(t, i, j, Lower(extension)) && r == RouteAt(t, i, j);
      assert PlainName(t[i].subcategories[j].name);
    }
  }

  /** The report groups a route's counter under the route's category. */
  lemma RouteKeyCategory(t: Taxonomy, extension: string)
    requires WellFormed(t)
    ensures Report.CategoryOf(RouteKey(Locate(t, extension))) == Locate(t, extension).category
  {
    var r := Locate(t, extension);
    if r != Fallback {
      var i, j :| FirstDeclaring(t, i, j, Lower(extension)) && r == RouteAt(t, i, j);
      assert PlainName(t[i].name) && PlainName(t[i].subcategories[j].name);
      Report.CategoryOfJoined(t[i].name, t[i].subcategories[j].name);
    } else {
      assert Otros == "Otros";
    }
  }

  datatype Mode = DryRun | Execute

  /** A directory that an execute run's `crear_estructura` creates: `Otros`, and
      for every declared subcategory its route directory and the category above it. */
  ghost predicate Provisioned(t: Taxonomy, p: Path) {
    || p == [Otros]
    || exists i, j :: 0 <= i < |t| && 0 <= j < |t[i].subcategories| && (p == [t[i].name] || p == RouteDir(RouteAt(t, i, j)))
  }

  /** The directory part of `crear_estructura`: in an execute run, each
      `Cat/Sub` with its parent (`mkdir(parents=True)`), and `Otros`; in a dry
      run, nothing. */
  function ProvisionDirs(fs: Snapshot, t: Taxonomy, mode: Mode): (r: Snapshot)
    ensures r.files == fs.files && fs.dirs <= r.dirs
    ensures mode == DryRun ==> r == fs
    ensures mode == Execute ==> [Otros] in r.dirs
    ensures mode == Execute ==> forall i, j :: 0 <= i < |t| && 0 <= j < |t[i].subcategories| ==>
      [t[i].name] in r.dirs && RouteDir(RouteAt(t, i, j)) in r.dirs
    ensures mode == Execute ==> forall p :: p in r.dirs <==> p in fs.dirs || Provisioned(t, p)
  {
    if mode == DryRun then fs
    else
      var subs := set i, j | 0 <= i < |t| && 0 <= j < |t[i].subcategories| :: RouteDir(RouteAt(t, i, j));
      var parents := set i | 0 <= i < |t| && |t[i].subcategories| > 0 :: [t[i].name];
      var r := Snapshot(fs.files, fs.dirs + parents + subs + {[Otros]});
      assert forall p :: p in r.dirs <==> p in fs.dirs || Provisioned(t, p) by {
        forall p ensures p in r.dirs <==> p in fs.dirs || Provisioned(t, p) {
          if p in parents {
            var i :| 0 <= i < |t| && |t[i].subcategories| > 0 && p == [t[i].name];
            assert RouteAt(t, i, 0).category == t[i].name;
          }
          if Provisioned(t, p) && p != [Otros] {
            var i, j :| 0 <= i < |t| && 0 <= j < |t[i].subcategories| && (p == [t[i].name] || p == RouteDir(RouteAt(t, i, j)));
            if p == [t[i].name] {
              assert p in parents;
            } else {
              assert p in subs;
            }
          }
        }
      }
      r
  }

  /** Creating the structure again creates nothing new. */
  lemma ProvisionIdempotent(fs: Snapshot, t: Taxonomy, mode: Mode)
    ensures ProvisionDirs(ProvisionDirs(fs, t, mode), t, mode) == ProvisionDirs(fs, t, mode)
  {
  }

  /** After an execute run's provisioning, the directory of every route a lookup
      can return exists. */
  lemma RouteDirProvisioned(fs: Snapshot, t: Taxonomy, extension: string)
    ensures DirExists(ProvisionDirs(fs, t, Execute), RouteDir(Locate(t, extension)))
  {
    var r := Locate(t, extension);
    if r != Fallback {
      var i, j :| FirstDeclaring(t, i, j, Lower(extension)) && r == RouteAt(t, i, j);
    }
  }

  // ---------------------------------------------------------------------------
  // Processing files (`procesar_archivo`, the loop of `organizar`)

  /** The run's fixed parameters: taxonomy, timestamp, mode, and the names whose
      move raises (permission denied or any other error of `shutil.move`). */
  datatype Settings = Settings(taxonomy: Taxonomy, timestamp: string, mode: Mode, failing: set<string>)

  /** The `stats` dictionary (`por_categoria` is never filled by this organizer). */
  datatype Stats = Stats(timestamp: string, mode: Mode, processed: nat, moved: nat, errors: nat, bySubcategory: Counter)

  datatype State = State(stats: Stats, fs: Snapshot)

  /** The number of names in `files` routed to counter key `k`. */
  function CountRoutedTo(t: Taxonomy, files: seq<string>, k: string): nat {
    if |files| == 0 then 0
    else (if RouteKey(RouteOf(t, files[0])) == k then 1 else 0) + CountRoutedTo(t, files[1..], k)
  }

  /** Where an execute run moves `name`: its route directory, under the
      timestamped name if the plain one is taken. */
  function Target(s: Settings, fs: Snapshot, name: string): (dst: Path)
    ensures var dir := RouteDir(RouteOf(s.taxonomy, name));
      && |dst| == |dir| + 1 && dst[..|dir|] == dir
      && (dst[|dir|] == name || dst[|dir|] == TimestampedName(name, s.timestamp))
      && (dst[|dir|] == name <==> !Exists(fs, dir + [name]))
  {
    var dir := RouteDir(RouteOf(s.taxonomy, name));
    var dst := Destination(fs, dir, name, s.timestamp);
    assert dst == dst[..|dir|] + [dst[|dir|]];
    dst
  }

  /** `procesar_archivo`: count the file and its route, then (execute run only)
      move it, counting either a move or an error. */
  function ProcessFile(s: Settings, st: State, name: string): (st': State)
    ensures st'.stats.processed == st.stats.processed + 1
    ensures var k := RouteKey(RouteOf(s.taxonomy, name));
      && Get(st'.stats.bySubcategory, k) == Get(st.stats.bySubcategory, k) + 1
      && (forall k' :: k' != k ==> Get(st'.stats.bySubcategory, k') == Get(st.stats.bySubcategory, k'))
      && (k in Keys(st.stats.bySubcategory) ==> Keys(st'.stats.bySubcategory) == Keys(st.stats.bySubcategory))
    ensures Total(st'.stats.bySubcategory) == Total(st.stats.bySubcategory) + 1
    ensures st'.stats.timestamp == st.stats.timestamp && st'.stats.mode == st.stats.mode
    ensures s.mode == DryRun ==>
      st'.stats.moved == st.stats.moved && st'.stats.errors == st.stats.errors && st'.fs == st.fs
    ensures s.mode == Execute ==>
      || (st'.stats.moved == st.stats.moved + 1 && st'.stats.errors == st.stats.errors
          && Move(st.fs, [name], Target(s, st.fs, name)) == Some(st'.fs) && name !in s.failing)
      || (st'.stats.errors == st.stats.errors + 1 && st'.stats.moved == st.stats.moved && st'.fs == st.fs)
    ensures s.mode == Execute && name !in s.failing && Move(st.fs, [name], Target(s, st.fs, name)).Some? ==>
      st'.stats.moved == st.stats.moved + 1
  {
    var route := RouteOf(s.taxonomy, name);
    var key := RouteKey(route);
    var counted := st.stats.(processed := st.stats.processed + 1,
                             bySubcategory := Increment(st.stats.bySubcategory, key));
    if s.mode == DryRun then State(counted, st.fs)
    else if name in s.failing then State(counted.(errors := counted.errors + 1), st.fs)
    else
      match Move(st.fs, [name], Target(s, st.fs, name))
      case Some(fs') => State(counted.(moved := counted.moved + 1), fs')
      case None => State(counted.(errors := counted.errors + 1), st.fs)
  }

  /** The `for archivo in archivos` loop. */
  function ProcessAll(s: Settings, st: State, files: seq<string>): (st': State)
    ensures st'.stats.processed == st.stats.processed + |files|
    ensures forall k :: Get(st'.stats.bySubcategory, k) == Get(st.stats.bySubcategory, k) + CountRoutedTo(s.taxonomy, files, k)
    ensures Total(st'.stats.bySubcategory) == Total(st.stats.bySubcategory) + |files|
    ensures st'.stats.timestamp == st.stats.timestamp && st'.stats.mode == st.stats.mode
    ensures s.mode == DryRun ==>
      st'.stats.moved == st.stats.moved && st'.stats.errors == st.stats.errors && st'.fs == st.fs
    ensures s.mode == Execute ==>
      st'.stats.moved + st'.stats.errors == st.stats.moved + st.stats.errors + |files|
    decreases |files|
  {
    if |files| == 0 then st else ProcessAll(s, ProcessFile(s, st, files[0]), files[1..])
  }

  /** The counters a run produces do not depend on the mode, the snapshot or
      which moves fail: a dry run predicts the execute run's `por_subcategoria`. */
  lemma {:induction false} CountersIndependentOfMode(s1: Settings, s2: Settings, st1: State, st2: State, files: seq<string>)
    requires s1.taxonomy == s2.taxonomy
    requires st1.stats.bySubcategory == st2.stats.bySubcategory
    ensures ProcessAll(s1, st1, files).stats.bySubcategory == ProcessAll(s2, st2, files).stats.bySubcategory
    decreases |files|
  {
    if |files| > 0 {
      CountersIndependentOfMode(s1, s2, ProcessFile(s1, st1, files[0]), ProcessFile(s2, st2, files[0]), files[1..]);
    }
  }

  /** An execute run in which no move raises moves every file, provided the files
      are distinct regular files of the folder and every route directory exists. */
  lemma {:induction false} EveryFileMovedWhenNothingFails(s: Settings, st: State, files: seq<string>)
    requires s.mode == Execute
    requires Distinct(files)
    requires forall n :: n in files ==> [n] in st.fs.files && n !in s.failing
    requires forall n :: n in files ==> DirExists(st.fs, RouteDir(RouteOf(s.taxonomy, n)))
    ensures ProcessAll(s, st, files).stats.moved == st.stats.moved + |files|
    ensures ProcessAll(s, st, files).stats.errors == st.stats.errors
    decreases |files|
  {
    if |files| > 0 {
      var n := files[0];
      var st1 := ProcessFile(s, st, n);
      assert st1.stats.moved == st.stats.moved + 1 && st1.stats.errors == st.stats.errors by {
        var dst := Target(s, st.fs, n);
        assert dst[..|dst| - 1] == RouteDir(RouteOf(s.taxonomy, n));
      }
      assert forall m :: m in files[1..] ==> [m] in st1.fs.files && DirExists(st1.fs, RouteDir(RouteOf(s.taxonomy, m))) by {
        forall m | m in files[1..]
          ensures [m] in st1.fs.files && DirExists(st1.fs, RouteDir(RouteOf(s.taxonomy, m)))
        {
          assert m != n;
        }
      }
      EveryFileMovedWhenNothingFails(s, st1, files[1..]);
    }
  }

  /** When both the plain and the timestamped name are taken in the route
      directory, an execute run still moves the file, onto the timestamped name:
      the file that was there is replaced, and the run counts a move, not an error. */
  lemma OverwriteOnRepeatedCollision(s: Settings, st: State, name: string)
    requires s.mode == Execute && name !in s.failing && [name] in st.fs.files
    requires DirExists(st.fs, RouteDir(RouteOf(s.taxonomy, name)))
    requires RouteDir(RouteOf(s.taxonomy, name)) + [name] in st.fs.files
    requires RouteDir(RouteOf(s.taxonomy, name)) + [TimestampedName(name, s.timestamp)] in st.fs.files
    ensures var dst := RouteDir(RouteOf(s.taxonomy, name)) + [TimestampedName(name, s.timestamp)];
      && ProcessFile(s, st, name).stats.moved == st.stats.moved + 1
      && ProcessFile(s, st, name).stats.errors == st.stats.errors
      && ProcessFile(s, st, name).fs.files[dst] == st.fs.files[[name]]
  {
    var dir := RouteDir(RouteOf(s.taxonomy, name));
    DestinationMayBeTaken(st.fs, dir, name, s.timestamp);
  }

  // ---------------------------------------------------------------------------
  // A whole run (`organizar`, `main`)

  datatype RunResult = RunResult(stats: Stats, fs: Snapshot, report: seq<Report.Group>)

  /** `organizar`: provision, list the regular files, process them in listing
      order, and build the console report. `listing` is what `os.listdir`
      returns after provisioning. */
  function Organize(s: Settings, fs: Snapshot, listing: seq<string>): (r: RunResult)
    ensures r.stats.processed == |RegularFiles(fs, listing)|
    ensures r.stats.timestamp == s.timestamp && r.stats.mode == s.mode
    ensures s.mode == Execute ==> r.stats.processed == r.stats.moved + r.stats.errors
    ensures s.mode == DryRun ==> r.stats.moved == 0 && r.stats.errors == 0 && r.fs == fs
    ensures Total(r.stats.bySubcategory) == r.stats.processed
    ensures forall k ::
      Get(r.stats.bySubcategory, k) == Get(InitialCounters(s.taxonomy), k) + CountRoutedTo(s.taxonomy, RegularFiles(fs, listing), k)
    ensures r.report == Report.Build(r.stats.bySubcategory)
    ensures Report.GroupsTotal(r.report) == r.stats.processed
  {
    var fs1 := ProvisionDirs(fs, s.taxonomy, s.mode);
    assert RegularFiles(fs1, listing) == RegularFiles(fs, listing) by {
      RegularFilesSameFiles(fs, fs1, listing);
    }
    var files := RegularFiles(fs1, listing);
    var start := State(Stats(s.timestamp, s.mode, 0, 0, 0, InitialCounters(s.taxonomy)), fs1);
    var st := ProcessAll(s, start, files);
    RunResult(st.stats, st.fs, Report.Build(st.stats.bySubcategory))
  }

  /** A dry run predicts the counters of an execute run on the same folder:
      `por_subcategoria`, and so the printed report, come out the same. */
  lemma DryRunPredictsCounters(s: Settings, fs: Snapshot, listing: seq<string>)
    ensures var dry := Organize(s.(mode := DryRun), fs, listing);
      var run := Organize(s.(mode := Execute), fs, listing);
      dry.stats.bySubcategory == run.stats.bySubcategory && dry.report == run.report
  {
    var sd, se := s.(mode := DryRun), s.(mode := Execute);
    var fsd, fse := ProvisionDirs(fs, s.taxonomy, DryRun), ProvisionDirs(fs, s.taxonomy, Execute);
    RegularFilesSameFiles(fsd, fse, listing);
    var start := InitialCounters(s.taxonomy);
    CountersIndependentOfMode(sd, se,
      State(Stats(s.timestamp, DryRun, 0, 0, 0, start), fsd),
      State(Stats(s.timestamp, Execute, 0, 0, 0, start), fse),
      RegularFiles(fsd, listing));
  }

  /** `main`: the `os.path.exists` test only rules out a missing path. A regular
      file passes it, and then an execute run raises from the first `mkdir`
      below it, which no `try` guards, while a dry run creates nothing and fails
      at `os.listdir`, inside the `try`. A folder is organised. */
  function RunCommand(root: Root, s: Settings, fs: Snapshot, listing: seq<string>): (r: Exit<RunResult>)
    ensures r.NoFolder? <==> root == Absent
    ensures r.Raised? <==> root == RegularFile && s.mode == Execute
    ensures r.Failed? <==> root == RegularFile && s.mode == DryRun
    ensures r.Completed? <==> root == Folder
    ensures r.Completed? ==>
      && r.run.stats.processed == |RegularFiles(fs, listing)|
      && Report.GroupsTotal(r.run.report) == r.run.stats.processed
  {
    match root
    case Absent => NoFolder
    case RegularFile => (match s.mode case Execute => Raised case DryRun => Failed)
    case Folder => Completed(Organize(s, fs, listing))
  }
}

=== FILE: kinds.dfy ===
/** The one-level category table of the flat organizer and of the original
    script: category names with their extension lists, searched in declared
    order, the first category whose list holds the extension winning. */
module Kinds {
  import opened Wrappers

  /** The fallback category of the flat and the hierarchical organizers. */
  const Otros: string := "Otros"

  datatype Kind = Kind(name: string, extensions: seq<string>)

  type Table = seq<Kind>

  /** Category `i` lists extension `e`. */
  ghost predicate Lists(t: Table, i: int, e: string) {
    0 <= i < |t| && e in t[i].extensions
  }

  /** Category `i` is the first in declared order to list `e`. */
  ghost predicate FirstLists(t: Table, i: int, e: string) {
    Lists(t, i, e) && forall k :: 0 <= k < i ==> !Lists(t, k, e)
  }

  /** The `for categoria, extensiones in tipos.items(): if ext in extensiones: ... break`
      search, from category `i` on: the index of the first category listing `e`. */
  function FirstListing(t: Table, e: string, i: nat := 0): (r: Option<nat>)
    requires i <= |t|
    ensures r.None? <==> forall k :: i <= k ==> !Lists(t, k, e)
    ensures r.Some? ==> i <= r.value && Lists(t, r.value, e) && forall k :: i <= k < r.value ==> !Lists(t, k, e)
    decreases |t| - i
  {
    if i == |t| then None
    else if e in t[i].extensions then
      assert Lists(t, i, e);
      Some(i)
    else FirstListing(t, e, i + 1)
  }

  /** The names of the table, in declared order (the keys of `tipos`). */
  function KindNames(t: Table): seq<string> {
    seq(|t|, i requires 0 <= i < |t| => t[i].name)
  }
}

=== FILE: names.dfy ===
/** File-name primitives the three organizers share: lower-casing, the extension
    as `pathlib.PurePath.suffix` reports it, the split `os.path.splitext` makes,
    and the timestamped name a file receives when its destination is taken.
    File names are bare names (no directory separator), as `os.listdir` returns them. */
module Names {

  /** Lower-cases an ASCII capital letter and leaves every other character alone. */
  function LowerChar(c: char): char {
    if 'A' <= c <= 'Z' then (c as int + 32) as char else c
  }

  /** `str.lower`, on the ASCII letters. */
  function Lower(s: string): (r: string)
    ensures |r| == |s|
    ensures forall i :: 0 <= i < |s| ==> r[i] == LowerChar(s[i])
  {
    if |s| == 0 then "" else [LowerChar(s[0])] + Lower(s[1..])
  }

  /** Lower-casing twice is lower-casing once. */
  lemma LowerIdempotent(s: string)
    ensures Lower(Lower(s)) == Lower(s)
  {
    assert forall i :: 0 <= i < |s| ==> Lower(Lower(s))[i] == Lower(s)[i];
  }

  /** `str.rfind` for one character: the last index holding `c`, or -1. */
  function RFind(s: string, c: char): (i: int)
    ensures -1 <= i < |s|
    ensures i >= 0 ==> s[i] == c
    ensures forall j :: i < j < |s| ==> s[j] != c
  {
    if |s| == 0 then -1
    else if s[|s| - 1] == c then |s| - 1
    else RFind(s[..|s| - 1], c)
  }

  /** The extension `PurePath.suffix` reports for a bare name: from the last dot
      to the end, when that dot is neither the first nor the last character. */
  function Suffix(name: string): (ext: string)
    ensures ext == "" <==>
      (|name| == 0 || name[|name| - 1] == '.' || forall i :: 0 < i < |name| ==> name[i] != '.')
    ensures ext != "" ==>
      && 2 <= |ext| < |name|
      && ext == name[|name| - |ext|..]
      && ext[0] == '.'
      && forall j :: 0 < j < |ext| ==> ext[j] != '.'
  {
    var i := RFind(name, '.');
    if 0 < i < |name| - 1 then name[i..] else ""
  }

  /** A non-empty extension always starts with a dot, and lower-casing keeps that
      dot: so a table entry that is not empty and does not start with a dot is
      never equal to the lower-cased extension of any file name. */
  lemma UndottedEntryNeverMatches(name: string, entry: string)
    requires entry != "" && entry[0] != '.'
    ensures Lower(Suffix(name)) != entry
  {
    var ext := Suffix(name);
    if ext != "" {
      assert Lower(ext)[0] == LowerChar(ext[0]) == '.';
    }
  }

  /** True when every character of `s` is a dot. */
  predicate AllDots(s: string) {
    forall i :: 0 <= i < |s| ==> s[i] == '.'
  }

  /** `os.path.splitext` on a bare name: the cut is at the last dot, unless only
      dots precede it, in which case the extension is empty. */
  function SplitExt(name: string): (parts: (string, string))
    ensures parts.0 + parts.1 == name
    ensures parts.1 != "" ==>
      && parts.1[0] == '.'
      && (forall j :: 0 < j < |parts.1| ==> parts.1[j] != '.')
      && !AllDots(parts.0)
    ensures parts.1 == "" ==>
      forall i, j :: 0 <= j < i < |name| && name[i] == '.' ==> name[j] == '.'
  {
    var d := RFind(name, '.');
    if d > 0 && !AllDots(name[..d]) then (name[..d], name[d..]) else (name, "")
  }

  /** The name a file receives when its destination is already taken:
      stem, underscore, run timestamp, extension. */
  function TimestampedName(name: string, timestamp: string): (r: string)
    ensures |r| == |name| + 1 + |timestamp|
    ensures r != name
  {
    var (stem, ext) := SplitExt(name);
    stem + "_" + timestamp + ext
  }

  /** Splitting the timestamped name gives back the original extension, and the
      original stem followed by `_` and the timestamp (the timestamp holds no dot,
      as the `%Y%m%d_%H%M%S` format guarantees). */
  lemma TimestampedNameSplits(name: string, timestamp: string)
    requires forall k :: 0 <= k < |timestamp| ==> timestamp[k] != '.'
    ensures SplitExt(TimestampedName(name, timestamp)).1 == SplitExt(name).1
    ensures SplitExt(TimestampedName(name, timestamp)).0 == SplitExt(name).0 + "_" + timestamp
  {
    var (stem, ext) := SplitExt(name);
    var tail := "_" + timestamp;
    assert forall k :: 0 <= k < |tail| ==> tail[k] != '.' by {
      forall k | 0 <= k < |tail|
        ensures tail[k] != '.'
      {
        if k > 0 {
          assert tail[k] == timestamp[k - 1];
        }
      }
    }
    if ext != "" {
      assert TimestampedName(name, timestamp) == (stem + tail) + ext;
      SplitsBeforeExtension(stem, tail, ext);
    } else {
      assert TimestampedName(name, timestamp) == name + tail;
      SplitsWithoutExtension(name, tail);
    }
  }

  /** A dotless piece between a stem that is not all dots and an extension
      leaves the cut where it was. */
  lemma SplitsBeforeExtension(stem: string, tail: string, ext: string)
    requires ext != "" && ext[0] == '.' && forall j :: 0 < j < |ext| ==> ext[j] != '.'
    requires !AllDots(stem)
    requires forall k :: 0 <= k < |tail| ==> tail[k] != '.'
    ensures SplitExt((stem + tail) + ext) == (stem + tail, ext)
  {
    var r := (stem + tail) + ext;
    var p := |stem| + |tail|;
    assert r[p] == '.';
    assert forall j :: p < j < |r| ==> r[j] == ext[j - p];
    var d := RFind(r, '.');
    assert d == p;
    assert r[..d] == stem + tail;
    var w :| 0 <= w < |stem| && stem[w] != '.';
    assert r[..d][w] == stem[w];
    assert r[d..] == ext;
  }

  /** A dotless piece after a name with no extension leaves it without one. */
  lemma SplitsWithoutExtension(name: string, tail: string)
    requires forall i, j :: 0 <= j < i < |name| && name[i] == '.' ==> name[j] == '.'
    requires forall k :: 0 <= k < |tail| ==> tail[k] != '.'
    ensures SplitExt(name + tail) == (name + tail, "")
  {
    var r := name + tail;
    forall i, j | 0 <= j < i < |r| && r[i] == '.'
      ensures r[j] == '.'
    {
      assert name[i] == '.';
    }
    var d := RFind(r, '.');
    if d > 0 {
      assert AllDots(r[..d]);
    }
  }
}

=== FILE: original.dfy ===
/** The original script (`organizar_descargas`): one level of categories and no
    fallback, so a file whose extension no list holds stays where it is; a match
    is moved to `carpeta/categoria/archivo` with no collision handling, and a
    move that raises ends the whole run, since nothing catches it. */
module Original {
  import opened Wrappers
  import opened Names
  import opened FileSystem
  import opened Seqs
  import opened Kinds

  /** The `tipos` table of the script; `'pptx'`, `'htm'` and `'webp'` lack their dot. */
  const Tipos: Table := [
    Kind("Imagenes", [".jpg", ".jpeg", ".png", ".gif", ".bmp"]),
    Kind("Documentos", [".pdf", ".docx", ".txt", ".xlsx", "pptx", "htm", "webp"]),
    Kind("Videos", [".mp4", ".avi", ".mov"]),
    Kind("Comprimidos", [".zip", ".rar", ".7z"]),
    Kind("programas", [".exe", ".example", "pptx", "htm", "webp"])
  ]

  /** The category of a lower-cased extension, if any: the first in declared
      order whose list holds it. */
  function CategoryFor(t: Table, e: string): (r: Option<string>)
    ensures r.None? <==> forall i :: !Lists(t, i, e)
    ensures r.Some? ==> exists i :: FirstLists(t, i, e) && r.value == t[i].name
  {
    match FirstListing(t, e)
    case Some(i) =>
      assert FirstLists(t, i, e);
      Some(t[i].name)
    case None => None
  }

  /** The classification of the loop: the extension is lower-cased first. */
  function Classify(t: Table, name: string): (r: Option<string>)
    ensures r.None? <==> forall i :: !Lists(t, i, Lower(Suffix(name)))
    ensures r.Some? ==> exists i :: FirstLists(t, i, Lower(Suffix(name))) && r.value == t[i].name
    ensures r.Some? ==> r.value in KindNames(t)
  {
    var e := Lower(Suffix(name));
    var r := CategoryFor(t, e);
    assert e == Lower(Suffix(name));
    assert r.Some? ==> r.value in KindNames(t) by {
      if r.Some? {
        var i :| FirstLists(t, i, e) && r.value == t[i].name;
        assert KindNames(t)[i] == t[i].name;
      }
    }
    r
  }

  /** The category the script gives a file name: always one of the keys of `tipos`. */
  function Category(name: string): (r: Option<string>)
    ensures r.Some? ==> r.value in KindNames(Tipos)
  {
    Classify(Tipos, name)
  }

  /** No extension reaches an entry without a leading dot: in `tipos` the
      entries `'pptx'`, `'htm'` and `'webp'` can never match. */
  lemma UndottedEntriesAreDead(name: string)
    ensures Lower(Suffix(name)) != "pptx" && Lower(Suffix(name)) != "htm" && Lower(Suffix(name)) != "webp"
  {
    UndottedEntryNeverMatches(name, "pptx");
    UndottedEntryNeverMatches(name, "htm");
    UndottedEntryNeverMatches(name, "webp");
  }

  /** With only the undotted entries listing them, `.pptx`, `.htm` and `.webp`
      files match no category of `tipos`, so the script leaves them in place. */
  lemma DottedFormsUnmatched(e: string)
    requires e == ".pptx" || e == ".htm" || e == ".webp"
    ensures CategoryFor(Tipos, e).None?
  {
    forall i | 0 <= i < |Tipos| ensures !Lists(Tipos, i, e) {
      assert i == 0 || i == 1 || i == 2 || i == 3 || i == 4;
    }
  }

  /** How a run ends: normally, or by the exception of the move of `culprit`. */
  datatype Outcome =
    | Finished(moved: nat, fs: Snapshot)
    | Crashed(moved: nat, fs: Snapshot, culprit: string)

  /** The folder-creation loop: `carpeta/categoria` for every key of the table. */
  function CreateFolders(t: Table, fs: Snapshot): (r: Snapshot)
    ensures r.files == fs.files && fs.dirs <= r.dirs
    ensures forall i :: 0 <= i < |t| ==> [t[i].name] in r.dirs
    ensures forall p :: p in r.dirs <==> p in fs.dirs || (|p| == 1 && p[0] in KindNames(t))
  {
    var dirs := set i | 0 <= i < |t| :: [t[i].name];
    assert forall i :: 0 <= i < |t| ==> t[i].name in KindNames(t) by {
      forall i | 0 <= i < |t| ensures t[i].name in KindNames(t) {
        assert KindNames(t)[i] == t[i].name;
      }
    }
    assert forall p :: |p| == 1 && p[0] in KindNames(t) ==> p in dirs by {
      forall p | |p| == 1 && p[0] in KindNames(t) ensures p in dirs {
        var i :| 0 <= i < |t| && KindNames(t)[i] == p[0];
        assert p == [t[i].name];
      }
    }
    Snapshot(fs.files, fs.dirs + dirs)
  }

  /** What the loop asks of a file name: the category it moves to, if any. */
  type Classifier = string -> Option<string>

  /** The names of `files` the script acts on: regular files of the folder whose
      extension some category lists, in listing order. */
  function Matched(classify: Classifier, fs: Snapshot, files: seq<string>): (m: seq<string>)
    ensures |m| <= |files|
  {
    if |files| == 0 then []
    else if [files[0]] in fs.files && classify(files[0]).Some? then [files[0]] + Matched(classify, fs, files[1..])
    else Matched(classify, fs, files[1..])
  }

  /** The script acts on exactly the listed regular files that have a category. */
  lemma {:induction false} MatchedMembers(classify: Classifier, fs: Snapshot, files: seq<string>)
    ensures forall n :: n in Matched(classify, fs, files) <==> n in files && [n] in fs.files && classify(n).Some?
    decreases |files|
  {
    if |files| > 0 {
      MatchedMembers(classify, fs, files[1..]);
    }
  }

  /** The move of `n` raises: its name is one of the failing ones, or its
      category folder is missing. */
  predicate Raises(classify: Classifier, dirs: set<Path>, failing: set<string>, n: string) {
    n in failing || (classify(n).Some? && [classify(n).value] !in dirs)
  }

  /** How many of `m`, from the front, move before the first one that raises. */
  function CleanPrefix(classify: Classifier, dirs: set<Path>, failing: set<string>, m: seq<string>): (k: nat)
    ensures k <= |m|
    ensures forall j :: 0 <= j < k ==> !Raises(classify, dirs, failing, m[j])
    ensures k < |m| ==> Raises(classify, dirs, failing, m[k])
  {
    if |m| == 0 || Raises(classify, dirs, failing, m[0]) then 0
    else 1 + CleanPrefix(classify, dirs, failing, m[1..])
  }

  /** The `for archivo in os.listdir(carpeta)` loop over `files`, `moved` files
      having moved already; the `isfile` test sees the folder as it is at that
      iteration. The matched files move one after the other until one raises,
      which ends the run with that file as the culprit. */
  function MoveAll(classify: Classifier, fs: Snapshot, files: seq<string>, failing: set<string>, moved: nat): (r: Outcome)
    requires Distinct(files)
    ensures r.fs.dirs == fs.dirs
    ensures var m := Matched(classify, fs, files);
      var k := CleanPrefix(classify, fs.dirs, failing, m);
      && r.moved == moved + k
      && (r.Finished? <==> k == |m|)
      && (r.Crashed? ==> k < |m| && r.culprit == m[k])
    decreases |files|
  {
    if |files| == 0 then Finished(moved, fs)
    else
      var n := files[0];
      if [n] !in fs.files then MoveAll(classify, fs, files[1..], failing, moved)
      else
        match classify(n)
        case None => MoveAll(classify, fs, files[1..], failing, moved)
        case Some(cat) =>
          MatchedStep(classify, fs, files, failing);
          if n in failing then Crashed(moved, fs, n)
          else
            match Move(fs, [n], [cat, n])
            case None => Crashed(moved, fs, n)
            case Some(fs') =>
              MoveKeepsMatched(classify, fs, fs', n, cat, files[1..]);
              MoveAll(classify, fs', files[1..], failing, moved + 1)
  }

  /** One iteration of the loop on a regular file with a category: the move fails
      only for a missing category folder, and the count of clean moves either
      stops here or goes on past this file. */
  lemma MatchedStep(classify: Classifier, fs: Snapshot, files: seq<string>, failing: set<string>)
    requires |files| > 0 && [files[0]] in fs.files && classify(files[0]).Some?
    ensures var n, cat := files[0], classify(files[0]).value;
      var m, ms := Matched(classify, fs, files), Matched(classify, fs, files[1..]);
      && m == [n] + ms
      && (Move(fs, [n], [cat, n]).None? <==> [cat] !in fs.dirs)
      && (Raises(classify, fs.dirs, failing, n) ==> CleanPrefix(classify, fs.dirs, failing, m) == 0)
      && (!Raises(classify, fs.dirs, failing, n) ==>
            CleanPrefix(classify, fs.dirs, failing, m) == 1 + CleanPrefix(classify, fs.dirs, failing, ms))
  {
    var n, cat := files[0], classify(files[0]).value;
    assert [cat, n][..1] == [cat];
    CleanPrefixCons(classify, fs.dirs, failing, n, Matched(classify, fs, files[1..]));
  }

  /** One step of `CleanPrefix`: the first file either raises or moves. */
  lemma CleanPrefixCons(classify: Classifier, dirs: set<Path>, failing: set<string>, n: string, rest: seq<string>)
    ensures CleanPrefix(classify, dirs, failing, [n] + rest)
         == if Raises(classify, dirs, failing, n) then 0 else 1 + CleanPrefix(classify, dirs, failing, rest)
  {
    assert ([n] + rest)[0] == n && ([n] + rest)[1..] == rest;
  }

  /** Moving `n` into a category folder leaves the other top-level names of the
      listing as they were, contents included. */
  lemma MovePreservesOthers(fs: Snapshot, fs': Snapshot, n: string, cat: string, rest: seq<string>)
    requires Move(fs, [n], [cat, n]) == Some(fs')
    requires n !in rest
    ensures forall x :: x in rest ==> ([x] in fs.files <==> [x] in fs'.files)
    ensures forall x :: x in rest && [x] in fs.files ==> fs'.files[[x]] == fs.files[[x]]
  {
    forall x | x in rest ensures [x] != [n] && [x] != [cat, n] {
    }
  }

  /** Moving `n` into a category folder does not change which of the other
      names of the listing the script acts on. */
  lemma MoveKeepsMatched(classify: Classifier, fs: Snapshot, fs': Snapshot, n: string, cat: string, rest: seq<string>)
    requires Move(fs, [n], [cat, n]) == Some(fs')
    requires n !in rest
    ensures Matched(classify, fs', rest) == Matched(classify, fs, rest)
  {
    MovePreservesOthers(fs, fs', n, cat, rest);
    MatchedFrame(classify, fs, fs', rest);
  }

  /** `Matched` only looks at whether the names of the listing are regular files. */
  lemma {:induction false} MatchedFrame(classify: Classifier, a: Snapshot, b: Snapshot, files: seq<string>)
    requires forall x :: x in files ==> ([x] in a.files <==> [x] in b.files)
    ensures Matched(classify, a, files) == Matched(classify, b, files)
    decreases |files|
  {
    if |files| > 0 {
      MatchedFrame(classify, a, b, files[1..]);
    }
  }

  /** `n` was a regular file of the folder and now sits in its category folder,
      under its own name and with its contents, and no longer in the folder. */
  ghost predicate Landed(classify: Classifier, before: Snapshot, after: Snapshot, n: string) {
    && classify(n).Some?
    && [n] in before.files && [n] !in after.files
    && [classify(n).value, n] in after.files
    && after.files[[classify(n).value, n]] == before.files[[n]]
  }

  /** Every file moved before the run ends has landed in its category folder
      (replacing whatever file had that name there). */
  lemma {:induction false} MovedFilesLand(classify: Classifier, fs: Snapshot, files: seq<string>, failing: set<string>, moved: nat)
    requires Distinct(files)
    ensures var r := MoveAll(classify, fs, files, failing, moved);
      var m := Matched(classify, fs, files);
      forall j :: 0 <= j < CleanPrefix(classify, fs.dirs, failing, m) ==> Landed(classify, fs, r.fs, m[j])
    decreases |files|
  {
    if |files| > 0 {
      var n, rest := files[0], files[1..];
      var r := MoveAll(classify, fs, files, failing, moved);
      var m := Matched(classify, fs, files);
      var k := CleanPrefix(classify, fs.dirs, failing, m);
      if [n] in fs.files && classify(n).Some? {
        var cat := classify(n).value;
        var ms := Matched(classify, fs, rest);
        MatchedStep(classify, fs, files, failing);
        if Raises(classify, fs.dirs, failing, n) {
          assert k == 0;
        } else {
          var fs' := Move(fs, [n], [cat, n]).value;
          assert r == MoveAll(classify, fs', rest, failing, moved + 1);
          MovePreservesOthers(fs, fs', n, cat, rest);
          MatchedFrame(classify, fs, fs', rest);
          MovedFilesLand(classify, fs', rest, failing, moved + 1);
          LaterMovesKeep(classify, fs', rest, failing, moved + 1, n, cat);
          MatchedMembers(classify, fs, rest);
          assert Landed(classify, fs, r.fs, m[0]);
          forall j | 1 <= j < k ensures Landed(classify, fs, r.fs, m[j]) {
            assert m[j] == ms[j - 1] && ms[j - 1] in ms;
            assert Landed(classify, fs', r.fs, ms[j - 1]);
          }
        }
      } else {
        assert r == MoveAll(classify, fs, rest, failing, moved);
        assert m == Matched(classify, fs, rest);
        MovedFilesLand(classify, fs, rest, failing, moved);
      }
    }
  }

  /** The moves of the rest of the listing neither bring back `[n]` nor touch `[cat, n]`. */
  lemma {:induction false} LaterMovesKeep(classify: Classifier, fs: Snapshot, files: seq<string>, failing: set<string>, moved: nat,
                                          n: string, cat: string)
    requires Distinct(files) && n !in files
    ensures var r := MoveAll(classify, fs, files, failing, moved);
      && ([n] in r.fs.files <==> [n] in fs.files)
      && ([cat, n] in r.fs.files <==> [cat, n] in fs.files)
      && ([cat, n] in fs.files ==> r.fs.files[[cat, n]] == fs.files[[cat, n]])
    decreases |files|
  {
    if |files| > 0 {
      var x := files[0];
      if [x] in fs.files && classify(x).Some? && x !in failing && Move(fs, [x], [classify(x).value, x]).Some? {
        var fs' := Move(fs, [x], [classify(x).value, x]).value;
        assert [n] != [x] && [cat, n] != [x] && [cat, n] != [classify(x).value, x];
        LaterMovesKeep(classify, fs', files[1..], failing, moved + 1, n, cat);
      } else {
        LaterMovesKeep(classify, fs, files[1..], failing, moved, n, cat);
      }
    }
  }

  /** A top-level file the run does not move, because it is not listed, matches
      no category, or comes at or after the culprit, keeps its contents. */
  lemma {:induction false} OthersStay(classify: Classifier, fs: Snapshot, files: seq<string>, failing: set<string>, moved: nat, n: string)
    requires Distinct(files)
    requires [n] in fs.files
    ensures var r := MoveAll(classify, fs, files, failing, moved);
      var m := Matched(classify, fs, files);
      n !in m[..CleanPrefix(classify, fs.dirs, failing, m)] ==> [n] in r.fs.files && r.fs.files[[n]] == fs.files[[n]]
    decreases |files|, 1
  {
    if |files| > 0 {
      var x, rest := files[0], files[1..];
      var r := MoveAll(classify, fs, files, failing, moved);
      var m := Matched(classify, fs, files);
      var k := CleanPrefix(classify, fs.dirs, failing, m);
      if [x] in fs.files && classify(x).Some? {
        var cat := classify(x).value;
        var ms := Matched(classify, fs, rest);
        MatchedStep(classify, fs, files, failing);
        if Raises(classify, fs.dirs, failing, x) {
          assert r.fs == fs;
        } else if n !in m[..k] {
          OthersStayPastMove(classify, fs, files, failing, moved, n);
        }
      } else {
        assert r == MoveAll(classify, fs, rest, failing, moved);
        OthersStay(classify, fs, rest, failing, moved, n);
      }
    }
  }

  /** `OthersStay` when the first file of the listing moves cleanly: `n` is
      not that file, and the rest of the run leaves it alone. */
  lemma {:induction false} OthersStayPastMove(classify: Classifier, fs: Snapshot, files: seq<string>, failing: set<string>, moved: nat, n: string)
    requires Distinct(files) && [n] in fs.files
    requires |files| > 0 && [files[0]] in fs.files && classify(files[0]).Some?
    requires !Raises(classify, fs.dirs, failing, files[0])
    requires var m := Matched(classify, fs, files); n !in m[..CleanPrefix(classify, fs.dirs, failing, m)]
    ensures var r := MoveAll(classify, fs, files, failing, moved); [n] in r.fs.files && r.fs.files[[n]] == fs.files[[n]]
    decreases |files|, 0
  {
    var x, rest := files[0], files[1..];
    var cat := classify(x).value;
    var fs' := PastCleanMove(classify, fs, files, failing, moved);
    var ms := Matched(classify, fs, rest);
    assert n !in ms[..CleanPrefix(classify, fs'.dirs, failing, ms)] by {
      var m := Matched(classify, fs, files);
      var k := CleanPrefix(classify, fs.dirs, failing, m);
      MatchedStep(classify, fs, files, failing);
      assert m[..k] == [x] + ms[..k - 1];
    }
    assert [n] in fs'.files && fs'.files[[n]] == fs.files[[n]] by {
      assert [n] != [x] && [n] != [cat, x];
    }
    OthersStay(classify, fs', rest, failing, moved + 1, n);
  }

  /** A clean move of the first file leaves the rest of the loop to run on the snapshot after it. */
  lemma PastCleanMove(classify: Classifier, fs: Snapshot, files: seq<string>, failing: set<string>, moved: nat) returns (fs': Snapshot)
    requires Distinct(files)
    requires |files| > 0 && [files[0]] in fs.files && classify(files[0]).Some?
    requires !Raises(classify, fs.dirs, failing, files[0])
    ensures Move(fs, [files[0]], [classify(files[0]).value, files[0]]) == Some(fs')
    ensures Matched(classify, fs', files[1..]) == Matched(classify, fs, files[1..])
    ensures MoveAll(classify, fs, files, failing, moved) == MoveAll(classify, fs', files[1..], failing, moved + 1)
  {
    var x := files[0];
    var cat := classify(x).value;
    MatchedStep(classify, fs, files, failing);
    fs' := Move(fs, [x], [cat, x]).value;
    MoveKeepsMatched(classify, fs, fs', x, cat, files[1..]);
  }

  /** `organizar_descargas`: create the folders, then move the files of the listing. */
  function OrganizeDownloads(fs: Snapshot, listing: seq<string>, failing: set<string>): (r: Outcome)
    requires Distinct(listing)
    ensures var m := Matched(Category, fs, listing);
      && (r.Finished? <==> forall j :: 0 <= j < |m| ==> m[j] !in failing)
      && (r.Finished? ==> r.moved == |m|)
      && (r.Crashed? ==> r.moved < |m| && r.culprit == m[r.moved] && r.culprit in failing
                         && forall j :: 0 <= j < r.moved ==> m[j] !in failing)
  {
    var fs0 := CreateFolders(Tipos, fs);
    MatchedFrame(Category, fs, fs0, listing);
    var m := Matched(Category, fs, listing);
    MatchedMembers(Category, fs, listing);
    forall j | 0 <= j < |m| ensures Raises(Category, fs0.dirs, failing, m[j]) <==> m[j] in failing {
      assert m[j] in m;
      var i :| FirstLists(Tipos, i, Lower(Suffix(m[j]))) && Classify(Tipos, m[j]).value == Tipos[i].name;
    }
    MoveAll(Category, fs0, listing, failing, 0)
  }

  /** The `__main__` call on the path `carpeta`. No existence test comes first: on
      a path that is missing or is a regular file, the first `mkdir` raises before
      any file is touched, and nothing catches it. A folder is organised. */
  function RunScript(root: Root, fs: Snapshot, listing: seq<string>, failing: set<string>): (r: Exit<Outcome>)
    requires Distinct(listing)
    ensures r.Raised? <==> root != Folder
    ensures r.Completed? <==> root == Folder
    ensures r.Completed? ==> r.run == OrganizeDownloads(fs, listing, failing)
  {
    if root == Folder then Completed(OrganizeDownloads(fs, listing, failing))
    else Raised
  }

  /** Every file a run of the script counts as moved has landed in its category folder. */
  lemma CountedFilesLand(fs: Snapshot, listing: seq<string>, failing: set<string>)
    requires Distinct(listing)
    ensures var r := OrganizeDownloads(fs, listing, failing);
      var m := Matched(Category, fs, listing);
      r.moved <= |m| && forall j :: 0 <= j < r.moved ==> Landed(Category, fs, r.fs, m[j])
  {
    var fs0 := CreateFolders(Tipos, fs);
    MatchedFrame(Category, fs, fs0, listing);
    MovedFilesLand(Category, fs0, listing, failing, 0);
  }

  /** A regular file of the folder that no category lists is still there, untouched,
      however the run ends. */
  lemma UnmatchedFilesStay(fs: Snapshot, listing: seq<string>, failing: set<string>, name: string)
    requires Distinct(listing)
    requires [name] in fs.files && Category(name).None?
    ensures var r := OrganizeDownloads(fs, listing, failing);
      [name] in r.fs.files && r.fs.files[[name]] == fs.files[[name]]
  {
    var fs0 := CreateFolders(Tipos, fs);
    MatchedFrame(Category, fs, fs0, listing);
    MatchedMembers(Category, fs0, listing);
    OthersStay(Category, fs0, listing, failing, 0, name);
  }

  /** The missing dots in `tipos` in action: a PowerPoint, HTML or WebP file is
      not organised. */
  lemma UndottedKindsStay(fs: Snapshot, listing: seq<string>, failing: set<string>, name: string)
    requires Distinct(listing)
    requires [name] in fs.files
    requires Lower(Suffix(name)) == ".pptx" || Lower(Suffix(name)) == ".htm" || Lower(Suffix(name)) == ".webp"
    ensures var r := OrganizeDownloads(fs, listing, failing);
      [name] in r.fs.files && r.fs.files[[name]] == fs.files[[name]]
  {
    DottedFormsUnmatched(Lower(Suffix(name)));
    UnmatchedFilesStay(fs, listing, failing, name);
  }
}

=== FILE: relocation.dfy ===
/** Choosing the destination of a file inside its route directory, as the flat and
    the hierarchical organizers both do: the file keeps its name unless something
    already exists there, in which case it receives the timestamped name. The
    timestamped name itself is not checked again. */
module Relocation {
  import opened Names
  import opened FileSystem

  /** Destination path of `name` moved into `dir`, given the current snapshot. */
  function Destination(fs: Snapshot, dir: Path, name: string, timestamp: string): (dst: Path)
    ensures |dst| == |dir| + 1 && dst[..|dir|] == dir
    ensures !Exists(fs, dir + [name]) ==> dst == dir + [name]
    ensures Exists(fs, dir + [name]) ==> dst != dir + [name] && dst[|dir|] == TimestampedName(name, timestamp)
  {
    var direct := dir + [name];
    if Exists(fs, direct) then dir + [TimestampedName(name, timestamp)] else direct
  }

  /** The destination is never a path that the existence check found taken, but
      when both the plain and the timestamped name are taken the chosen
      destination is an existing file: the move that follows replaces it. */
  lemma DestinationMayBeTaken(fs: Snapshot, dir: Path, name: string, timestamp: string)
    requires dir + [name] in fs.files
    requires dir + [TimestampedName(name, timestamp)] in fs.files
    ensures Destination(fs, dir, name, timestamp) in fs.files
    ensures Destination(fs, dir, name, timestamp) != dir + [name]
  {
  }
}

=== FILE: report.dfy ===
/** The console report of the hierarchical organizer: the locations with a positive
    count, grouped under the text before their first slash, categories in
    lexicographic order, each with the sum of its items, and the items of a
    category by descending count (ties keep insertion order, as Python's stable
    `sorted(..., reverse=True)` does). */
module Report {
  import opened Counters
  import opened Seqs

  /** `location.split('/')[0]`, which is also the whole location when it has no slash. */
  function CategoryOf(location: string): (cat: string)
    ensures |cat| <= |location| && cat == location[..|cat|]
    ensures forall i :: 0 <= i < |cat| ==> cat[i] != '/'
    ensures |cat| < |location| ==> location[|cat|] == '/'
  {
    if |location| == 0 || location[0] == '/' then "" else [location[0]] + CategoryOf(location[1..])
  }

  /** The category of `prefix + "/" + rest` is `prefix` when `prefix` has no slash. */
  lemma CategoryOfJoined(prefix: string, rest: string)
    requires forall i :: 0 <= i < |prefix| ==> prefix[i] != '/'
    ensures CategoryOf(prefix + "/" + rest) == prefix
  {
    var loc := prefix + "/" + rest;
    var cat := CategoryOf(loc);
    assert loc[|prefix|] == '/';
    assert forall i :: 0 <= i < |prefix| ==> loc[i] == prefix[i];
    assert |cat| == |prefix|;
    assert loc[..|prefix|] == prefix;
  }

  /** Python's `<` on strings: code point order, a proper prefix first. */
  predicate StrLess(a: string, b: string) {
    |b| > 0 && (|a| == 0 || a[0] < b[0] || (a[0] == b[0] && StrLess(a[1..], b[1..])))
  }

  lemma {:induction false} StrLessIrreflexive(a: string)
    ensures !StrLess(a, a)
  {
    if |a| > 0 {
      StrLessIrreflexive(a[1..]);
    }
  }

  lemma {:induction false} StrLessTransitive(a: string, b: string, c: string)
    requires StrLess(a, b) && StrLess(b, c)
    ensures StrLess(a, c)
  {
    if |a| > 0 && a[0] == b[0] && b[0] == c[0] {
      StrLessTransitive(a[1..], b[1..], c[1..]);
    }
  }

  lemma {:induction false} StrLessTotal(a: string, b: string)
    requires a != b
    ensures StrLess(a, b) || StrLess(b, a)
  {
    if |a| > 0 && |b| > 0 && a[0] == b[0] {
      assert a == [a[0]] + a[1..] && b == [b[0]] + b[1..];
      StrLessTotal(a[1..], b[1..]);
    }
  }

  /** The entries of `c` with a positive count whose location falls under `cat`, in insertion order. */
  function InCategory(c: Counter, cat: string): seq<Entry> {
    if |c| == 0 then []
    else
      var last := c[|c| - 1];
      InCategory(c[..|c| - 1], cat) + (if last.count > 0 && CategoryOf(last.key) == cat then [last] else [])
  }

  /** One key of the intermediate `categorias` dictionary and its list of items. */
  datatype Bucket = Bucket(category: string, items: seq<Entry>)

  function CategoriesOf(bs: seq<Bucket>): seq<string> {
    seq(|bs|, i requires 0 <= i < |bs| => bs[i].category)
  }

  /** One bucket per category: the keys of `categorias` never repeat. */
  predicate DistinctCategories(bs: seq<Bucket>) {
    forall i, j :: 0 <= i < j < |bs| ==> bs[i].category != bs[j].category
  }

  /** The pairwise form used by the grouping proofs is the general `Distinct` of the category list. */
  lemma {:induction false} DistinctCategoriesAgree(bs: seq<Bucket>)
    ensures DistinctCategories(bs) <==> Distinct(CategoriesOf(bs))
    decreases |bs|
  {
    if |bs| > 0 {
      var cs := CategoriesOf(bs);
      assert cs[1..] == CategoriesOf(bs[1..]);
      DistinctCategoriesAgree(bs[1..]);
      if DistinctCategories(bs) {
        assert cs[0] !in cs[1..] by {
          forall k | 0 <= k < |cs[1..]| ensures cs[1..][k] != cs[0] {
            assert cs[1..][k] == bs[k + 1].category;
          }
        }
      }
      if Distinct(cs) {
        forall i, j | 0 <= i < j < |bs| ensures bs[i].category != bs[j].category {
          if i == 0 {
            assert bs[j].category == cs[1..][j - 1];
          }
        }
      }
    }
  }

  function BucketsTotal(bs: seq<Bucket>): nat {
    if |bs| == 0 then 0 else Total(bs[0].items) + BucketsTotal(bs[1..])
  }

  /** Starting `categorias[cat]` as an empty list when the category is new, then appending `e` to it. */
  function AddTo(bs: seq<Bucket>, cat: string, e: Entry): (r: seq<Bucket>)
    requires DistinctCategories(bs)
    ensures cat in CategoriesOf(bs) ==> |r| == |bs|
    ensures cat !in CategoriesOf(bs) ==> |r| == |bs| + 1 && r[|bs|] == Bucket(cat, [e])
    ensures forall i :: 0 <= i < |bs| ==>
      r[i] == if bs[i].category == cat then Bucket(cat, bs[i].items + [e]) else bs[i]
    ensures BucketsTotal(r) == BucketsTotal(bs) + e.count
    decreases |bs|
  {
    if |bs| == 0 then
      assert Total([e]) == e.count + Total([]);
      [Bucket(cat, [e])]
    else if bs[0].category == cat then
      assert CategoriesOf(bs)[0] == cat;
      TotalSnoc(bs[0].items, e);
      assert forall i :: 1 <= i < |bs| ==> bs[i].category != cat;
      [Bucket(cat, bs[0].items + [e])] + bs[1..]
    else
      assert CategoriesOf(bs) == [bs[0].category] + CategoriesOf(bs[1..]);
      var rest := AddTo(bs[1..], cat, e);
      var r := [bs[0]] + rest;
      assert r[1..] == rest;
      r
  }

  /** `bs` is the grouping of the positive entries of `c`: distinct categories,
      each holding exactly its entries in insertion order, every category with a
      positive entry present, and nothing lost from the total. */
  ghost predicate Collected(c: Counter, bs: seq<Bucket>) {
    && DistinctCategories(bs)
    && (forall i :: 0 <= i < |bs| ==> bs[i].items == InCategory(c, bs[i].category))
    && (forall cat :: cat in CategoriesOf(bs) <==> InCategory(c, cat) != [])
    && BucketsTotal(bs) == Total(c)
  }

  /** The first loop of the report: one bucket per category, in order of first
      appearance, holding the positive entries of that category. */
  function Collect(c: Counter): (bs: seq<Bucket>)
    ensures Collected(c, bs)
    decreases |c|
  {
    if |c| == 0 then []
    else
      var init := c[..|c| - 1];
      var last := c[|c| - 1];
      var prev := Collect(init);
      CollectStep(c, prev);
      AddEntry(prev, last)
  }

  /** One iteration of the grouping loop: skip a zero entry, append a positive one to its category. */
  function AddEntry(bs: seq<Bucket>, e: Entry): (r: seq<Bucket>)
    requires DistinctCategories(bs)
    ensures DistinctCategories(r)
    ensures e.count == 0 ==> r == bs
    ensures BucketsTotal(r) == BucketsTotal(bs) + e.count
  {
    if e.count == 0 then bs
    else
      AddToDistinct(bs, CategoryOf(e.key), e);
      AddTo(bs, CategoryOf(e.key), e)
  }

  lemma InCategorySnoc(init: Counter, last: Entry, cat: string)
    ensures InCategory(init + [last], cat)
      == InCategory(init, cat) + (if last.count > 0 && CategoryOf(last.key) == cat then [last] else [])
  {
    assert (init + [last])[..|init|] == init;
  }

  /** A category already present is never given a second bucket. */
  lemma AddToDistinct(bs: seq<Bucket>, cat: string, e: Entry)
    requires DistinctCategories(bs)
    ensures DistinctCategories(AddTo(bs, cat, e))
  {
    var r := AddTo(bs, cat, e);
    forall i, j | 0 <= i < j < |r|
      ensures r[i].category != r[j].category
    {
      if j == |bs| {
        assert CategoriesOf(bs)[i] == r[i].category;
      }
    }
  }

  /** Appending keeps the categories and their order; a new category goes at the end. */
  lemma CategoriesAfterAdd(bs: seq<Bucket>, cat: string, e: Entry)
    requires DistinctCategories(bs)
    ensures CategoriesOf(AddTo(bs, cat, e))
      == if cat in CategoriesOf(bs) then CategoriesOf(bs) else CategoriesOf(bs) + [cat]
  {
    var r := AddTo(bs, cat, e);
    var after, before := CategoriesOf(r), CategoriesOf(bs);
    forall i | 0 <= i < |bs|
      ensures after[i] == before[i]
    {
      assert r[i].category == bs[i].category;
    }
    if cat in before {
      assert after == before;
    } else {
      assert after[|bs|] == cat;
      assert after == before + [cat];
    }
  }

  /** One more counter keeps the buckets an exact grouping of the counters seen so far. */
  lemma CollectStep(c: Counter, prev: seq<Bucket>)
    requires |c| > 0 && Collected(c[..|c| - 1], prev)
    ensures Collected(c, AddEntry(prev, c[|c| - 1]))
  {
    var init, last := c[..|c| - 1], c[|c| - 1];
    assert c == init + [last];
    CollectSnoc(init, last, prev);
  }

  /** `CollectStep` with the new counter written as appended to the earlier ones. */
  lemma CollectSnoc(init: Counter, last: Entry, prev: seq<Bucket>)
    requires Collected(init, prev)
    ensures Collected(init + [last], AddEntry(prev, last))
  {
    var c := init + [last];
    TotalSnoc(init, last);
    if last.count == 0 {
      forall cat
        ensures InCategory(c, cat) == InCategory(init, cat)
      {
        InCategorySnoc(init, last, cat);
      }
    } else {
      AddToDistinct(prev, CategoryOf(last.key), last);
      CollectItems(init, last, prev);
      CollectCategories(init, last, prev);
    }
  }

  /** Appending a positive counter keeps every bucket exactly its category's entries. */
  lemma CollectItems(init: Counter, last: Entry, prev: seq<Bucket>)
    requires Collected(init, prev) && last.count > 0
    ensures var r := AddTo(prev, CategoryOf(last.key), last);
      forall i :: 0 <= i < |r| ==> r[i].items == InCategory(init + [last], r[i].category)
  {
    var cat := CategoryOf(last.key);
    var r := AddTo(prev, cat, last);
    forall i | 0 <= i < |r|
      ensures r[i].items == InCategory(init + [last], r[i].category)
    {
      InCategorySnoc(init, last, r[i].category);
      if i == |prev| {
        assert cat !in CategoriesOf(prev);
        assert InCategory(init, cat) == [];
      }
    }
  }

  /** Appending a positive counter adds its category to those with positive entries. */
  lemma CollectCategories(init: Counter, last: Entry, prev: seq<Bucket>)
    requires Collected(init, prev) && last.count > 0
    ensures var r := AddTo(prev, CategoryOf(last.key), last);
      forall k :: k in CategoriesOf(r) <==> InCategory(init + [last], k) != []
  {
    var cat := CategoryOf(last.key);
    CategoriesAfterAdd(prev, cat, last);
    forall k
      ensures k in CategoriesOf(AddTo(prev, cat, last)) <==> InCategory(init + [last], k) != []
    {
      InCategorySnoc(init, last, k);
    }
  }

  /** Inserts a bucket into a list sorted by category. */
  function InsertBucket(x: Bucket, s: seq<Bucket>): (r: seq<Bucket>)
    ensures multiset(r) == multiset(s) + multiset{x}
    ensures BucketsTotal(r) == Total(x.items) + BucketsTotal(s)
    decreases |s|
  {
    if |s| == 0 || StrLess(x.category, s[0].category) then [x] + s
    else
      var r := [s[0]] + InsertBucket(x, s[1..]);
      assert s == [s[0]] + s[1..];
      assert r[1..] == InsertBucket(x, s[1..]);
      r
  }

  predicate StrictlyAscending(bs: seq<Bucket>) {
    forall i, j :: 0 <= i < j < |bs| ==> StrLess(bs[i].category, bs[j].category)
  }

  lemma {:induction false} InsertBucketAscending(x: Bucket, s: seq<Bucket>)
    requires StrictlyAscending(s)
    requires forall b :: b in s ==> b.category != x.category
    ensures StrictlyAscending(InsertBucket(x, s))
    decreases |s|
  {
    var r := InsertBucket(x, s);
    if |s| == 0 {
    } else if StrLess(x.category, s[0].category) {
      forall i, j | 0 <= i < j < |r|
        ensures StrLess(r[i].category, r[j].category)
      {
        if i == 0 && j > 1 {
          StrLessTransitive(x.category, s[0].category, s[j - 1].category);
        }
      }
    } else {
      assert s[0] in s;
      StrLessTotal(x.category, s[0].category);
      var tail := InsertBucket(x, s[1..]);
      forall b | b in s[1..]
        ensures b.category != x.category
      {
        assert b in s;
      }
      InsertBucketAscending(x, s[1..]);
      InsertedAbove(x, s);
      assert r == [s[0]] + tail;
      forall i, j | 0 <= i < j < |r|
        ensures StrLess(r[i].category, r[j].category)
      {
        if i == 0 {
          assert r[j] == tail[j - 1] && tail[j - 1] in tail;
        }
      }
    }
  }

  /** Inserting above the head of an ascending list keeps the head below everything after it. */
  lemma InsertedAbove(x: Bucket, s: seq<Bucket>)
    requires |s| > 0 && StrictlyAscending(s) && StrLess(s[0].category, x.category)
    ensures forall b :: b in InsertBucket(x, s[1..]) ==> StrLess(s[0].category, b.category)
  {
    var tail := InsertBucket(x, s[1..]);
    forall b | b in tail
      ensures StrLess(s[0].category, b.category)
    {
      assert b in multiset(tail);
      if b != x {
        assert b in multiset(s[1..]);
        var k :| 0 <= k < |s[1..]| && s[1..][k] == b;
        assert s[k + 1] == b;
      }
    }
  }

  lemma HeadCategoryNotInRest(bs: seq<Bucket>, rest: seq<Bucket>)
    requires |bs| > 0 && DistinctCategories(bs)
    requires multiset(rest) == multiset(bs[1..])
    ensures forall b :: b in rest ==> b.category != bs[0].category
  {
    forall b | b in rest
      ensures b.category != bs[0].category
    {
      assert b in multiset(bs[1..]);
      var k :| 0 <= k < |bs[1..]| && bs[1..][k] == b;
      assert bs[k + 1] == b;
    }
  }

  /** Dropping the first bucket keeps the categories distinct. */
  lemma DistinctCategoriesTail(bs: seq<Bucket>)
    requires |bs| > 0 && DistinctCategories(bs)
    ensures DistinctCategories(bs[1..])
  {
    forall i, j | 0 <= i < j < |bs| - 1
      ensures bs[1..][i].category != bs[1..][j].category
    {
      assert bs[1..][i] == bs[i + 1] && bs[1..][j] == bs[j + 1];
    }
  }

  /** `sorted(categorias.items())`: buckets by ascending category. */
  function SortBuckets(bs: seq<Bucket>): (r: seq<Bucket>)
    requires DistinctCategories(bs)
    ensures multiset(r) == multiset(bs)
    ensures StrictlyAscending(r)
    ensures BucketsTotal(r) == BucketsTotal(bs)
    decreases |bs|
  {
    if |bs| == 0 then []
    else
      DistinctCategoriesTail(bs);
      var rest := SortBuckets(bs[1..]);
      SortBucketsStep(bs, rest);
      InsertBucket(bs[0], rest)
  }

  /** Inserting the first bucket into the sorted others sorts them all. */
  lemma SortBucketsStep(bs: seq<Bucket>, rest: seq<Bucket>)
    requires |bs| > 0 && DistinctCategories(bs)
    requires multiset(rest) == multiset(bs[1..]) && StrictlyAscending(rest)
    requires BucketsTotal(rest) == BucketsTotal(bs[1..])
    ensures multiset(InsertBucket(bs[0], rest)) == multiset(bs)
    ensures StrictlyAscending(InsertBucket(bs[0], rest))
    ensures BucketsTotal(InsertBucket(bs[0], rest)) == BucketsTotal(bs)
  {
    HeadCategoryNotInRest(bs, rest);
    InsertBucketAscending(bs[0], rest);
    assert bs == [bs[0]] + bs[1..];
  }

  /** The entries of `s` whose count is `n`, in order. */
  function WithCount(s: seq<Entry>, n: nat): seq<Entry> {
    if |s| == 0 then [] else (if s[0].count == n then [s[0]] else []) + WithCount(s[1..], n)
  }

  predicate Descending(s: seq<Entry>) {
    forall i, j :: 0 <= i < j < |s| ==> s[i].count >= s[j].count
  }

  /** Inserts an entry before the first one whose count it reaches. */
  function InsertItem(x: Entry, s: seq<Entry>): (r: seq<Entry>)
    ensures multiset(r) == multiset(s) + multiset{x}
    ensures Total(r) == x.count + Total(s)
    decreases |s|
  {
    if |s| == 0 || x.count >= s[0].count then [x] + s
    else
      var tail := InsertItem(x, s[1..]);
      var r := [s[0]] + tail;
      assert s == [s[0]] + s[1..];
      assert r[1..] == tail;
      assert multiset(r) == multiset{s[0]} + multiset(tail);
      assert multiset(s) == multiset{s[0]} + multiset(s[1..]);
      r
  }

  /** Inserting keeps the order among equal counts: `x` goes before the entries
      of its own count, which is where Python's stable sort puts the entry
      that came first. */
  lemma {:induction false} InsertItemWithCount(x: Entry, s: seq<Entry>, n: nat)
    ensures WithCount(InsertItem(x, s), n) == (if x.count == n then [x] else []) + WithCount(s, n)
    decreases |s|
  {
    if |s| > 0 && x.count < s[0].count {
      InsertItemWithCount(x, s[1..], n);
      assert s == [s[0]] + s[1..];
      PassedOver(s[0], x, InsertItem(x, s[1..]), s[1..], n);
    } else {
      WithCountCons(x, s, n);
    }
  }

  /** Stepping over an entry with a larger count does not reorder the entries of any count. */
  lemma PassedOver(a: Entry, x: Entry, tail: seq<Entry>, rest: seq<Entry>, n: nat)
    requires x.count < a.count
    requires WithCount(tail, n) == (if x.count == n then [x] else []) + WithCount(rest, n)
    ensures WithCount([a] + tail, n) == (if x.count == n then [x] else []) + WithCount([a] + rest, n)
  {
    WithCountCons(a, tail, n);
    WithCountCons(a, rest, n);
    if x.count == n {
      assert a.count != n;
    }
  }

  /** `WithCount` on a list given as head and tail. */
  lemma WithCountCons(e: Entry, t: seq<Entry>, n: nat)
    ensures WithCount([e] + t, n) == (if e.count == n then [e] else []) + WithCount(t, n)
  {
    assert ([e] + t)[1..] == t;
  }

  lemma {:induction false} InsertItemDescending(x: Entry, s: seq<Entry>)
    requires Descending(s)
    ensures Descending(InsertItem(x, s))
    decreases |s|
  {
    if |s| > 0 && x.count < s[0].count {
      var tail := InsertItem(x, s[1..]);
      var r := InsertItem(x, s);
      InsertItemDescending(x, s[1..]);
      assert r == [s[0]] + tail;
      InsertedBelow(x, s);
      forall i, j | 0 <= i < j < |r|
        ensures r[i].count >= r[j].count
      {
        if i == 0 {
          assert r[j] == tail[j - 1] && tail[j - 1] in tail;
        }
      }
    }
  }

  /** Inserting below the head of a descending list keeps the head above everything after it. */
  lemma InsertedBelow(x: Entry, s: seq<Entry>)
    requires |s| > 0 && Descending(s) && x.count < s[0].count
    ensures forall e :: e in InsertItem(x, s[1..]) ==> e.count <= s[0].count
  {
    var tail := InsertItem(x, s[1..]);
    forall e | e in tail
      ensures e.count <= s[0].count
    {
      assert e in multiset(tail);
      if e != x {
        assert e in multiset(s[1..]);
        var k :| 0 <= k < |s[1..]| && s[1..][k] == e;
        assert s[k + 1] == e;
      }
    }
  }

  /** `sorted(items, key=count, reverse=True)`: descending by count, and stable:
      the items sharing a count keep their original relative order. */
  function SortItems(s: seq<Entry>): (r: seq<Entry>)
    ensures multiset(r) == multiset(s)
    ensures Descending(r)
    ensures forall n :: WithCount(r, n) == WithCount(s, n)
    ensures Total(r) == Total(s)
    decreases |s|
  {
    if |s| == 0 then []
    else
      assert s == [s[0]] + s[1..];
      InsertItemDescending(s[0], SortItems(s[1..]));
      forall n
        ensures WithCount(InsertItem(s[0], SortItems(s[1..])), n) == WithCount(s, n)
      {
        InsertItemWithCount(s[0], SortItems(s[1..]), n);
      }
      InsertItem(s[0], SortItems(s[1..]))
  }

  /** One printed category: its name, its total and its items in display order. */
  datatype Group = Group(category: string, total: nat, items: seq<Entry>)

  function GroupsTotal(gs: seq<Group>): nat {
    if |gs| == 0 then 0 else gs[0].total + GroupsTotal(gs[1..])
  }

  function ToGroup(b: Bucket): Group {
    Group(b.category, Total(b.items), SortItems(b.items))
  }

  function ToGroups(bs: seq<Bucket>): (gs: seq<Group>)
    ensures |gs| == |bs| && forall i :: 0 <= i < |bs| ==> gs[i] == ToGroup(bs[i])
    ensures GroupsTotal(gs) == BucketsTotal(bs)
    decreases |bs|
  {
    if |bs| == 0 then [] else [ToGroup(bs[0])] + ToGroups(bs[1..])
  }

  /** `mostrar_reporte`, as a structure: the groups in the order they are printed. */
  function Build(c: Counter): (gs: seq<Group>)
    ensures forall i, j :: 0 <= i < j < |gs| ==> StrLess(gs[i].category, gs[j].category)
    ensures forall cat :: cat in GroupCategories(gs) <==> InCategory(c, cat) != []
    ensures forall i :: 0 <= i < |gs| ==>
      && gs[i].total == Total(InCategory(c, gs[i].category))
      && multiset(gs[i].items) == multiset(InCategory(c, gs[i].category))
      && Descending(gs[i].items)
      && forall n :: WithCount(gs[i].items, n) == WithCount(InCategory(c, gs[i].category), n)
    ensures GroupsTotal(gs) == Total(c)
  {
    var collected := Collect(c);
    var sorted := SortBuckets(collected);
    SortedItemsMatch(c, collected, sorted);
    SortedCategoriesMatch(c, collected, sorted);
    ToGroups(sorted)
  }

  function GroupCategories(gs: seq<Group>): seq<string> {
    seq(|gs|, i requires 0 <= i < |gs| => gs[i].category)
  }

  /** A reordering of the collected buckets still pairs every category with its items. */
  lemma SortedItemsMatch(c: Counter, collected: seq<Bucket>, sorted: seq<Bucket>)
    requires Collected(c, collected)
    requires multiset(sorted) == multiset(collected)
    ensures forall i :: 0 <= i < |sorted| ==> sorted[i].items == InCategory(c, sorted[i].category)
  {
    forall i | 0 <= i < |sorted|
      ensures sorted[i].items == InCategory(c, sorted[i].category)
    {
      assert sorted[i] in multiset(collected);
      var k :| 0 <= k < |collected| && collected[k] == sorted[i];
    }
  }

  /** A category named in one ordering of buckets is named in any other ordering. */
  lemma PermutedCategories(a: seq<Bucket>, b: seq<Bucket>, cat: string)
    requires multiset(a) == multiset(b)
    requires cat in CategoriesOf(a)
    ensures cat in CategoriesOf(b)
  {
    var i :| 0 <= i < |a| && a[i].category == cat;
    assert a[i] in multiset(b);
    var k :| 0 <= k < |b| && b[k] == a[i];
    assert CategoriesOf(b)[k] == cat;
  }

  /** A reordering of the collected buckets names the same categories. */
  lemma SortedCategoriesMatch(c: Counter, collected: seq<Bucket>, sorted: seq<Bucket>)
    requires forall cat :: cat in CategoriesOf(collected) <==> InCategory(c, cat) != []
    requires multiset(sorted) == multiset(collected)
    ensures forall cat :: cat in GroupCategories(ToGroups(sorted)) <==> InCategory(c, cat) != []
  {
    var gs := ToGroups(sorted);
    assert GroupCategories(gs) == CategoriesOf(sorted);
    forall cat
      ensures cat in CategoriesOf(sorted) <==> cat in CategoriesOf(collected)
    {
      if cat in CategoriesOf(sorted) {
        PermutedCategories(sorted, collected, cat);
      }
      if cat in CategoriesOf(collected) {
        PermutedCategories(collected, sorted, cat);
      }
    }
  }
}

=== FILE: seqs.dfy ===
/** Sequence facts shared by the listings and the statistics dictionaries. */
module Seqs {

  /** No element occurs twice: true of an `os.listdir` listing and of the keys of a dictionary. */
  predicate Distinct<T(==)>(s: seq<T>) {
    |s| == 0 || (s[0] !in s[1..] && Distinct(s[1..]))
  }

  /** `a` is `b` with some elements left out, the rest kept in order. */
  predicate Subsequence<T(==)>(a: seq<T>, b: seq<T>)
    decreases |a| + |b|
  {
    if |a| == 0 then true
    else if |b| == 0 then false
    else (a[0] == b[0] && Subsequence(a[1..], b[1..])) || Subsequence(a, b[1..])
  }
}

=== FILE: wrappers.dfy ===
/** The optional value used wherever the organizers may have nothing to return:
    a lookup without a match, a move that did not happen, a run that never started. */
module Wrappers {

  datatype Option<+T> = None | Some(value: T)
}
